=== FILE: README.md ===
# Calorie counter: a Dafny model of its rules

The system is a calorie counter. A React client searches foods, composes a meal and shows a daily summary. A Django REST backend stores foods, meals and the foods eaten in each meal.

This project models the rules of both sides as pure functions over immutable records and proves properties of them. Browser effects become values:

- Each screen handler is a step function. It takes the screen state, the stored session and the backend's reply. It returns the next state, the session afterwards, and the list of effects the handler issues (requests and navigation).
- A request the handler never sends shows up twice: no request effect appears, and a lemma proves the result does not depend on the reply.

The modules:

- `Base`: option, result, and the field-to-messages error body.
- `Text`: joining and splitting, ASCII lower-casing, substring containment, code-point order, decimal rendering of naturals, JavaScript string length, and Python's `strip`.
- `Collections`: order-keeping filter, insertion sort, unique keys, fresh keys.
- `Client`: session, reply and effect shapes. It also holds the `Object.values(data).flat().join(' ')` flattening of error bodies.
- `Nutrition`: macros in proportion to the portion size, and field-wise totals.
- `MealItems`: the line-item list of the meal being composed (add, update quantity, remove). It holds the shared-key quirk and the intended key.
- `MealLogger`, `Dashboard`, `FoodSearch`, `RegisterForm`: the four screens' handlers.
- `FoodCatalog`: the food table (defaults, the `is_custom` rule, unique names) and the name-or-brand search of the food list endpoint.
- `MealStore`: the meal tables of migration 0002 (choices, uniqueness, cascades, orderings) and the per-user meal views.
- `Accounts`: the registration and login serializers, and the registration endpoint.
- `EndToEnd`: facts that link the client to the backend.

Numbers follow each side's representation:

- Client nutrient values and quantities are exact reals.
- Backend decimal columns are integers counting hundredths, bounded by their column's digit count.
- Strings are character sequences. Dates are `YYYY-MM-DD` text.

## Model

| member | source | states |
|---|---|---|
| Nutrition.CalculateMacros | calorie_counter_frontend/src/components/MealLogger.jsx:71-82 | no food, an empty or zero quantity, or a zero portion give all four nutrients 0; otherwise each nutrient times the portion size equals the food's nutrient times the quantity |
| Nutrition.MacrosAtPortionSize | calorie_counter_frontend/src/components/MealLogger.jsx:75-81 | a quantity equal to the (non-zero) portion size gives back the food's listed values |
| Nutrition.MacrosAdditive | calorie_counter_frontend/src/components/MealLogger.jsx:75-81 | the macros of q1 + q2 are the sum of those of q1 and of q2 |
| Nutrition.MealTotals | calorie_counter_frontend/src/components/MealLogger.jsx:84-103 | the totals of an empty list are all zero |
| Nutrition.MealTotalsAppend | calorie_counter_frontend/src/components/MealLogger.jsx:84-103 | appending an item adds exactly its macros to every total |
| Nutrition.MealTotalsPermutation | calorie_counter_frontend/src/components/MealLogger.jsx:84-103 | reordering the items leaves the totals unchanged |
| Nutrition.SumByPermutation | calorie_counter_frontend/src/components/MealLogger.jsx:90-95 | a field-wise sum is the same for any two sequences with the same elements |
| MealItems.AddFood | calorie_counter_frontend/src/components/MealLogger.jsx:164-198 | success exactly when a food is pending, the quantity is present and positive, and the food is not listed. Otherwise the invalid-quantity or duplicate message is returned. On success the old list is a prefix, and one item with the given key, food, quantity and proportional macros is appended |
| MealItems.AddKeepsFoodsDistinct | calorie_counter_frontend/src/components/MealLogger.jsx:171-175 | adding never lists a food twice |
| MealItems.AddKeepsMacrosUpToDate | calorie_counter_frontend/src/components/MealLogger.jsx:177-192 | after an add every item's macros are those of its quantity |
| MealItems.AddRaisesTotals | calorie_counter_frontend/src/components/MealLogger.jsx:177-192 | a successful add raises the totals by the new item's macros |
| MealItems.UpdateQuantity | calorie_counter_frontend/src/components/MealLogger.jsx:201-224 | an absent or non-positive quantity changes nothing. Otherwise every item with the key gets the quantity and recomputed macros, while length, order, keys, foods and every other item are unchanged |
| MealItems.UpdateKeepsFoodsDistinct | calorie_counter_frontend/src/components/MealLogger.jsx:208-223 | updating keeps foods distinct |
| MealItems.UpdateKeepsMacrosUpToDate | calorie_counter_frontend/src/components/MealLogger.jsx:208-223 | updating keeps macros matching quantities |
| MealItems.UpdateIdempotent | calorie_counter_frontend/src/components/MealLogger.jsx:201-224 | repeating an update changes nothing more |
| MealItems.RemoveItem | calorie_counter_frontend/src/components/MealLogger.jsx:226-228 | no item with the key remains, and every survivor comes from the list, as often as it was there at most |
| MealItems.RemoveMembership | calorie_counter_frontend/src/components/MealLogger.jsx:226-228 | an item survives exactly when it was listed under another key |
| MealItems.RemoveAppend | calorie_counter_frontend/src/components/MealLogger.jsx:226-228 | removal distributes over concatenation, so survivors keep their order |
| MealItems.RemoveAbsentKey | calorie_counter_frontend/src/components/MealLogger.jsx:226-228 | removing a key nobody carries leaves the list unchanged |
| MealItems.RemoveKeepsFoodsDistinct | calorie_counter_frontend/src/components/MealLogger.jsx:226-228 | removal keeps foods distinct |
| MealItems.RemoveKeepsMacrosUpToDate | calorie_counter_frontend/src/components/MealLogger.jsx:226-228 | removal keeps macros matching quantities |
| MealItems.AddKeepsAllKeyed | calorie_counter_frontend/src/components/MealLogger.jsx:185 | every item added by the logger carries the same literal key |
| MealItems.RemoveKeepsAllKeyed | calorie_counter_frontend/src/components/MealLogger.jsx:226-228 | removal keeps the shared key on every surviving item |
| MealItems.RemoveDropsEveryItem | calorie_counter_frontend/src/components/MealLogger.jsx:185 | with the shared key, removing any item empties the list |
| MealItems.UpdateReachesEveryItem | calorie_counter_frontend/src/components/MealLogger.jsx:185 | with the shared key, editing one item's quantity edits all of them |
| MealItems.RemovingOneOfTwoDropsBoth | calorie_counter_frontend/src/components/MealLogger.jsx:185 | two different foods added in turn are both deleted by deleting the first |
| MealItems.IntendedKey | calorie_counter_frontend/src/components/MealLogger.jsx:185 | the intended key starts with the food id and a dash |
| MealItems.KeyPrefixDeterminesFood | calorie_counter_frontend/src/components/MealLogger.jsx:185 | a key of the intended form names exactly one food id |
| MealItems.AddIntendedKeepsKeyedByFood | calorie_counter_frontend/src/components/MealLogger.jsx:183-191 | with intended keys, every key starts with its item's food id |
| MealItems.IntendedKeysAreDistinct | calorie_counter_frontend/src/components/MealLogger.jsx:183-191 | with intended keys and distinct foods, keys are distinct |
| MealItems.RemoveIntendedDropsExactlyOne | calorie_counter_frontend/src/components/MealLogger.jsx:226-228 | with intended keys, removing item k leaves exactly the other items, in order |
| MealLogger.SearchChange | calorie_counter_frontend/src/components/MealLogger.jsx:108-152 | results, error and pending food are always cleared. A query under 3 UTF-16 code units, as JavaScript counts length, sends nothing. Without a token the handler navigates to login. Otherwise it requests that query and shows the foods; on failure a 401 clears both tokens and navigates, and any other failure sets the generic error |
| MealLogger.SearchWithoutRequestIgnoresReply | calorie_counter_frontend/src/components/MealLogger.jsx:115-126 | a short query or no token sends no request, and the outcome is the same for every reply |
| MealLogger.SelectFood | calorie_counter_frontend/src/components/MealLogger.jsx:155-161 | the food becomes pending with its portion size as quantity; results, term and error are cleared; the list is untouched |
| MealLogger.TwoAstralCharactersAreSearched | calorie_counter_frontend/src/components/MealLogger.jsx:115 | a query of two astral characters, shorter than 3 characters but 4 code units long, is sent |
| Text.Utf16Length | calorie_counter_frontend/src/components/MealLogger.jsx:115 | JavaScript's length lies between the character count and twice it |
| Text.Utf16LengthWithoutAstral | calorie_counter_frontend/src/components/MealLogger.jsx:115 | without astral characters, JavaScript's length is the character count |
| Text.Utf16LengthAppend | calorie_counter_frontend/src/components/MealLogger.jsx:115 | the code units of a concatenation are those of its parts |
| MealLogger.CancelSelection | calorie_counter_frontend/src/components/MealLogger.jsx:486-490 | no pending food, empty quantity, no error, and the list and results untouched |
| MealLogger.AddToMeal | calorie_counter_frontend/src/components/MealLogger.jsx:164-198 | a refused add only sets the error. A successful one appends the pending food and clears the selection and error, keeping date, meal type and results |
| MealLogger.SelectThenAddListsPortionValues | calorie_counter_frontend/src/components/MealLogger.jsx:155-198 | choosing a food and adding it at the proposed quantity lists its own per-portion values |
| MealLogger.SavePayload | calorie_counter_frontend/src/components/MealLogger.jsx:251-258 | the payload carries the date and meal type, and one (food id, quantity) pair per item, in order |
| MealLogger.PayloadFoodsDistinct | calorie_counter_frontend/src/components/MealLogger.jsx:251-258 | distinct foods in the list give distinct food ids in the payload |
| MealLogger.SelectThenCancelKeepsMeal | calorie_counter_frontend/src/components/MealLogger.jsx:155-161 | choosing a food and cancelling it leaves the meal list, date and type as they were, with nothing pending and the search cleared |
| MealLogger.EditQuantity | calorie_counter_frontend/src/components/MealLogger.jsx:560 | only the list changes and keeps its length. An absent or non-positive quantity changes nothing; otherwise the items with the key take the new quantity and the others keep theirs |
| MealLogger.RemoveFromMeal | calorie_counter_frontend/src/components/MealLogger.jsx:518 | only the list changes; no item with the key remains, and survivors come from the list |
| MealLogger.ClassifySaveFailure | calorie_counter_frontend/src/components/MealLogger.jsx:277-289 | the session ends exactly on a 401 without a body. A body gives the prefix and the flattened messages; a 401 without a body gives the expired-session message; anything else gives the generic message |
| MealLogger.UnauthorizedWithBodyKeepsSession | calorie_counter_frontend/src/components/MealLogger.jsx:278-285 | a 401 with a body is shown as flattened messages and keeps the session |
| MealLogger.ClassifySaveFailureIntended | calorie_counter_frontend/src/components/MealLogger.jsx:277-289 | with the 401 test first, the session ends exactly on a 401 |
| MealLogger.ClassificationsDifferOnlyOnUnauthorizedWithBody | calorie_counter_frontend/src/components/MealLogger.jsx:277-289 | the two orders agree on every failure except a 401 with a body |
| MealLogger.SaveMeal | calorie_counter_frontend/src/components/MealLogger.jsx:230-293 | an empty list only sets its error. No token navigates to login. Otherwise the payload is posted; success clears items, search and selection but keeps date and meal type; failure is reported as classified, ending the session only when the classification says so |
| MealLogger.SaveWithoutRequestIgnoresReply | calorie_counter_frontend/src/components/MealLogger.jsx:235-248 | an empty meal or no token sends nothing, whatever the reply |
| MealLogger.InitialSatisfiesInvariant | calorie_counter_frontend/src/components/MealLogger.jsx:37-39 | the mounted screen satisfies the line-item invariant |
| MealLogger.HandlersPreserveInvariant | calorie_counter_frontend/src/components/MealLogger.jsx:108-293 | every handler keeps one item per food, macros matching quantities, and the shared key |
| Dashboard.MealTypeLabel | calorie_counter_frontend/src/components/Dashboard.jsx:22-29 | a known meal type shows its label, and an unknown one shows itself |
| Dashboard.MealsOn | calorie_counter_frontend/src/components/Dashboard.jsx:61 | a meal is kept exactly when it is in the reply and on the date |
| Dashboard.MealsOnAppend | calorie_counter_frontend/src/components/Dashboard.jsx:61 | the date filter distributes over concatenation, so the reply's order is kept |
| Dashboard.MealsOnKeepsSameDay | calorie_counter_frontend/src/components/Dashboard.jsx:61 | a reply all on the date is kept whole |
| Dashboard.DailyTotals | calorie_counter_frontend/src/components/Dashboard.jsx:65-80 | no meals give all-zero totals, and a single meal gives its own four values, a missing value counting 0 |
| Dashboard.DailyTotalsAppend | calorie_counter_frontend/src/components/Dashboard.jsx:65-75 | starting from zero, each meal in turn raises each of the four totals by exactly its own value, or by 0 where it has none; so the totals are the field-wise sums of the meals' values |
| Dashboard.MissingTotalsCountAsZero | calorie_counter_frontend/src/components/Dashboard.jsx:71-74 | a meal whose four totals are all missing leaves the day's totals unchanged |
| Dashboard.DayTotalsAppend | calorie_counter_frontend/src/components/Dashboard.jsx:61-80 | the day's totals of a concatenated reply are the sums of the two parts' day totals |
| Dashboard.OtherDaysDoNotCount | calorie_counter_frontend/src/components/Dashboard.jsx:61-80 | meals of other dates change neither the list nor the totals |
| Dashboard.FetchDailyMeals | calorie_counter_frontend/src/components/Dashboard.jsx:35-94 | the list and totals are emptied. No token sets the error and navigates without a request. A reply shows its meals on the date and the field-wise sums of their totals. A 401 clears both tokens and navigates; any other failure sets the generic error |
| Dashboard.FetchForgetsPreviousDay | calorie_counter_frontend/src/components/Dashboard.jsx:36-42 | nothing shown before the fetch affects its outcome |
| Dashboard.FetchWithoutTokenIgnoresReply | calorie_counter_frontend/src/components/Dashboard.jsx:45-50 | without a token nothing is requested and no reply matters |
| Dashboard.ChangeDate | calorie_counter_frontend/src/components/Dashboard.jsx:109-115 | a new date is selected and only that date's meals are shown |
| FoodSearch.ClassifyFetchFailure | calorie_counter_frontend/src/components/FoodSearch.jsx:74-84 | the session ends exactly on a 401. Otherwise a body gives the prefix and the flattened messages, and no body gives the bare generic text |
| FoodSearch.UnauthorizedAlwaysSignsOut | calorie_counter_frontend/src/components/FoodSearch.jsx:74-79 | a 401 signs out whatever its body |
| FoodSearch.FetchFoodItems | calorie_counter_frontend/src/components/FoodSearch.jsx:34-89 | items, error and selection are cleared. No token shows the bare generic text, with no request and no navigation. A reply is shown, with "not found" exactly when it is empty and the query is not. A failure shows its classified message after the one request; the session ends exactly on a 401, which navigates nowhere |
| FoodSearch.NoTokenHidesLoginNotice | calorie_counter_frontend/src/components/FoodSearch.jsx:43-49 | without a token the not-authenticated notice never shows and nothing navigates |
| FoodSearch.UnauthorizedStaysOnScreen | calorie_counter_frontend/src/components/FoodSearch.jsx:74-79 | a 401 ends the session without navigating |
| FoodSearch.FetchFoodItemsIntended | calorie_counter_frontend/src/components/FoodSearch.jsx:43-49 | with working redirects, no token navigates to login with the not-authenticated notice, and a 401 navigates after the request with the expired notice |
| FoodSearch.IntendedDiffersOnlyInRedirects | calorie_counter_frontend/src/components/FoodSearch.jsx:34-89 | the as-written and intended fetches agree on session and state except the no-token message, and differ in effects only by the missing redirect |
| FoodSearch.FetchForgetsPreviousResults | calorie_counter_frontend/src/components/FoodSearch.jsx:36-39 | nothing listed or selected before a fetch affects its outcome |
| FoodSearch.EmptyQueryNeverNotFound | calorie_counter_frontend/src/components/FoodSearch.jsx:67-70 | the empty query shows every food it receives and never "not found" |
| FoodSearch.FetchWithoutTokenIgnoresReply | calorie_counter_frontend/src/components/FoodSearch.jsx:44-50 | without a token nothing is requested and no reply matters |
| FoodSearch.Mount | calorie_counter_frontend/src/components/FoodSearch.jsx:92-95 | mounting requests the empty query and shows the reply without an error |
| FoodSearch.SubmitSearch | calorie_counter_frontend/src/components/FoodSearch.jsx:97-100 | submitting requests the current term |
| FoodSearch.ShortTermsAreSent | calorie_counter_frontend/src/components/FoodSearch.jsx:52-57 | a one-character term is requested: there is no minimum length |
| FoodSearch.BackToList | calorie_counter_frontend/src/components/FoodSearch.jsx:106-110 | going back clears the selection and requests the empty query, keeping the term |
| FoodSearch.ShowAll | calorie_counter_frontend/src/components/FoodSearch.jsx:157-160 | "show all" empties the term and requests the empty query |
| FoodSearch.EditTerm | calorie_counter_frontend/src/components/FoodSearch.jsx:147 | typing changes the term only: list, error, selection and loading stay |
| FoodSearch.ShowDetails | calorie_counter_frontend/src/components/FoodSearch.jsx:102-104 | the clicked food is selected, and list, term, error and loading stay |
| FoodSearch.BackToListIsShowAllKeepingTerm | calorie_counter_frontend/src/components/FoodSearch.jsx:106-110 | going back and "show all" differ only in the term left in the box |
| RegisterForm.HandleSubmit | calorie_counter_frontend/src/components/auth/Register.jsx:14-48 | both messages are cleared. A mismatch sets its error and sends nothing. Otherwise the four fields are posted; success shows the message and schedules login after 2000 ms; a failure with a body shows the prefix and the flattened messages, and one without shows the generic text. Fields and session never change |
| RegisterForm.SubmitForgetsPreviousMessages | calorie_counter_frontend/src/components/auth/Register.jsx:16-17 | earlier messages never affect a submit |
| RegisterForm.MismatchSendsNothing | calorie_counter_frontend/src/components/auth/Register.jsx:19-22 | mismatched passwords send no request, whatever the reply |
| RegisterForm.ServerMessagesRecoverable | calorie_counter_frontend/src/components/auth/Register.jsx:39-42 | after the prefix, the shown error splits at spaces back into the server's messages when none holds a space |
| Client.FlattenRoundTrip | calorie_counter_frontend/src/components/auth/Register.jsx:41 | the flattened text splits back into every message of every field, in order |
| Client.FlattenSingle | calorie_counter_frontend/src/components/auth/Register.jsx:41 | one field with one message flattens to that message |
| FoodCatalog.NewFood | api/models.py:11-38 | a food given only a name has no brand, is not custom, and fits the columns; its portion is 100.00 "g", its four main nutrients 0.00, and sugars, fiber and sodium 0.00 |
| FoodCatalog.Save | api/models.py:48-52 | only `is_custom` may change, and it is true afterwards exactly when it was true or the food has a creator |
| FoodCatalog.SaveIdempotent | api/models.py:48-52 | saving twice is saving once |
| FoodCatalog.SaveWithoutCreatorIsIdentity | api/models.py:48-52 | without a creator, saving changes nothing |
| FoodCatalog.NewFoodCustomIffCreated | api/models.py:35-38 | a new food is custom after saving exactly when it has a creator |
| FoodCatalog.InsertFood | api/models.py:7 | an insert is refused exactly when the name is in use; otherwise the saved food is appended with an id no other food has |
| FoodCatalog.InsertKeepsValid | api/models.py:7 | inserting keeps ids and names unique, rows within their columns, and creators only on custom foods |
| FoodCatalog.ByName | api/models.py:43 | the foods, in name order |
| FoodCatalog.SearchFoods | api/views.py:51-57 | no search gives every food; a search gives the matching foods; either way sorted by name |
| FoodCatalog.SearchMembership | api/views.py:55-56 | a food is listed exactly when its name or brand contains the query, ignoring case |
| FoodCatalog.SearchCount | api/views.py:55-56 | each matching food is listed as often as it is stored, and others never |
| FoodCatalog.EmptyQueryListsAll | api/views.py:53-57 | the empty query gives the same list as no query |
| FoodCatalog.SearchIgnoresQueryCase | api/views.py:55-56 | a query and its lower-case form give the same list |
| Text.ContainsIffOccurs | api/views.py:55-56 | containment holds exactly when the query occurs at some offset |
| MealStore.CreateMeal | api/views.py:70-72 | the meal is refused exactly for an unknown meal type or a taken (user, date, type); otherwise it is appended, owned by the requesting user, with a fresh id, and nothing else changes |
| MealStore.CreateMealKeepsValid | api/migrations/0002_meal_mealfooditem_meal_food_items_and_more.py:49-52 | creating a meal keeps every constraint of the store |
| MealStore.AddEntry | api/migrations/0002_meal_mealfooditem_meal_food_items_and_more.py:34-41 | a line is added exactly when its meal and food exist, the (meal, food) pair is new, and the quantity fits 10 digits with 2 decimals |
| MealStore.AddEntryKeepsValid | api/migrations/0002_meal_mealfooditem_meal_food_items_and_more.py:41 | adding a line keeps every constraint of the store |
| MealStore.DeleteUser | api/migrations/0002_meal_mealfooditem_meal_food_items_and_more.py:22 | exactly the user's meals and those meals' lines go; every food stays, and the user's foods lose their creator |
| MealStore.ForgetCreator | api/models.py:35-36 | a deleted user's foods lose their creator, and nothing else changes |
| MealStore.DeleteUserKeepsValid | api/migrations/0002_meal_mealfooditem_meal_food_items_and_more.py:22 | deleting a user leaves no meal, line or food pointing at what was deleted |
| MealStore.DeleteMeal | api/migrations/0002_meal_mealfooditem_meal_food_items_and_more.py:36 | exactly the meal and its lines go |
| MealStore.DeleteMealKeepsValid | api/migrations/0002_meal_mealfooditem_meal_food_items_and_more.py:36 | deleting a meal keeps every constraint of the store |
| MealStore.DeleteFood | api/migrations/0002_meal_mealfooditem_meal_food_items_and_more.py:35 | exactly the food and the lines that used it go |
| MealStore.DeleteFoodKeepsValid | api/migrations/0002_meal_mealfooditem_meal_food_items_and_more.py:35 | deleting a food keeps every constraint of the store |
| MealStore.ListOrderReversesOnlyDates | api/views.py:68 | the list order reverses the default order of dates and keeps the meal-type order within a date |
| MealStore.ListLeIsTotalOrder | api/views.py:68 | latest date first, then meal type, is a total preorder |
| MealStore.DefaultOrder | api/migrations/0002_meal_mealfooditem_meal_food_items_and_more.py:27 | the meals, ordered by date and then meal type |
| MealStore.MealsOfUser | api/views.py:66-68 | exactly the user's meals, latest date first and then by meal type |
| MealStore.FindOwnMeal | api/views.py:80-82 | a meal is found only when it belongs to the user and has the id; none is found when no such meal exists |
| MealStore.RetrieveMeal | api/views.py:80-82 | only a meal of the requesting user with the id is found; any other id is not found |
| MealStore.DestroyMeal | api/views.py:80-82 | a meal the user cannot retrieve leaves the store unchanged; otherwise that meal is deleted with its lines |
| MealStore.DestroyMealSparesOthers | api/views.py:80-82 | destroying never removes another user's meal |
| Accounts.ValidateRegistration | api/serializers.py:25-29 | data is accepted unchanged exactly when the passwords match; otherwise the error sits under the key "pasword" |
| Text.Strip | api/serializers.py:13-16 | the value the serializer's fields hand on starts and ends with a non-whitespace character, and is never longer than what was sent |
| Text.StripIgnoresPadding | api/serializers.py:13-16 | whitespace (Python's `isspace` set) before and after a value never changes what the field hands on |
| Text.StripKeepsUnpadded | api/serializers.py:13-16 | a value without surrounding whitespace is handed on unchanged |
| Text.StripIdempotent | api/serializers.py:13-16 | stripping a stripped value changes nothing |
| Accounts.FieldPassIgnoresPadding | api/serializers.py:12-20 | padding all four fields with whitespace gives the same values to `validate` and `create` |
| Accounts.TrailingSpaceInPasswordIsAccepted | api/serializers.py:25-29 | "pw " and "pw" count as matching passwords: the request is created and the account's password is "pw" |
| Accounts.NormalizeEmail | api/serializers.py:34-38 | an address with no '@' is stored as given, and the stored address is always as long as the one sent |
| Accounts.NormalizeEmailSplitsAtLastAt | api/serializers.py:34-38 | the stored address keeps everything up to its last '@' as typed and lower-cases the domain after it |
| Accounts.NormalizeEmailIdempotent | api/serializers.py:34-38 | normalising a stored address again changes nothing |
| Accounts.NormalizedKeepsLastAt | api/serializers.py:34-38 | lower-casing the domain leaves the last '@' where it was |
| Accounts.MixedCaseDomainShownLower | api/serializers.py:34-38 | registering "Ana@X.ES" shows "Ana@x.es" in the response |
| Accounts.CreateUser | api/serializers.py:31-39 | no email means no account (the missing key aborts `create`); otherwise the account has the given id, username and password |
| Accounts.CreateIgnoresConfirmation | api/serializers.py:31-39 | the created account does not depend on password2 |
| Accounts.RegisterPost | api/views.py:18-28 | 201 exactly when the field checks pass, the stripped passwords match and an email was sent; the response then shows the id, the stripped username and the normalised email with both tokens. 500 exactly when all that holds but the email is missing. Otherwise 400 with the field errors, or with the "pasword" mismatch error |
| Accounts.ErrorResponseNamesAField | api/views.py:28 | a 400 response always carries a message |
| Accounts.PaddingNeverMatters | api/views.py:18-28 | whitespace around the four fields never changes the endpoint's answer |
| Accounts.ValidateLogin | api/serializers.py:47-62 | success exactly when username and password are both given and authenticate; missing ones and failed authentication give their messages; success returns the input plus the user |
| Accounts.MissingCredentialsNeverAuthenticate | api/serializers.py:51-59 | missing credentials are refused without consulting authentication |
| EndToEnd.SentRegistrationsPassPasswordRule | calorie_counter_frontend/src/components/auth/Register.jsx:19-30 | every registration the form sends passes the server's password rule |
| EndToEnd.ServerMismatchAsShown | api/serializers.py:25-28 | a server-side mismatch would show as the prefix and the one message |
| EndToEnd.ShowAllListsEveryFood | calorie_counter_frontend/src/components/FoodSearch.jsx:157-160 | "show all" requests a query that the server answers with every food |
| EndToEnd.PayloadEntries | calorie_counter_frontend/src/components/MealLogger.jsx:251-258 | one meal line per payload item, in order, each in the new meal and naming the item's food |
| EndToEnd.SavedMealFitsMealLineRule | api/migrations/0002_meal_mealfooditem_meal_food_items_and_more.py:41 | a saved meal's lines never repeat a (meal, food) pair |
| EndToEnd.MealTypeTablesAgree | api/migrations/0002_meal_mealfooditem_meal_food_items_and_more.py:21 | the logger's options, the dashboard's labels and the database's choices name the same six types with the same labels |
| EndToEnd.InitialMealTypeIsAChoice | calorie_counter_frontend/src/components/MealLogger.jsx:38 | the logger's default meal type is one the database accepts |

## Left out

- HTTP, `localStorage` and routing are not modelled. Requests and navigation are effect values. Tokens are an input session, and replies are inputs.
- React state batching, rendering and styling are not modelled. Out-of-order search replies, a concurrency concern, are not modelled either.
- `parseFloat`, `toFixed(2)` and IEEE arithmetic are not modelled.
- Nutrition.CalculateMacros: works on exact reals, so display rounding to two decimals is not modelled.
- Nutrition.CalculateMacros: treats the portion-size guard as a numeric comparison. The food serializer is not part of this model. If it sends decimals as text, the guard never fires and a zero portion gives non-finite values.
- Dashboard.ChangeDate: navigates to login once when there is no token. The source's date effect can navigate a second time when no username is stored; the stored username is not modelled.
- MealLogger.SelectFood: the quantity field holds the portion size as a number. The `'0'` fallback is the number 0.
- Client.Effect: the search query goes into the URL unencoded (`?search=${query}` at `MealLogger.jsx:132` and `FoodSearch.jsx:60`). URL encoding is not modelled, so a query holding `&`, `#` or `+` reaches the server differently from how `GetFoods` carries it.
- `new Date()`, "today" defaults and the date input's `max` attribute are not modelled. The date is an input string.
- The "no results" test at `MealLogger.jsx:136` compares an array to a number and never holds, so no such message is modelled.
- FoodSearch.FetchFoodItems: the rejected promise that leaves the handler after a 401 is not an effect of the model. Only its visible outcome is: tokens gone, the expired notice, loading cleared.
- Login.jsx, App.jsx, main.jsx, PrivateRoute.jsx, urls.py and admin.py are not modelled. They store tokens, route, or configure.
- JWT issuance and Django's `authenticate` are not modelled: tokens are parameters, and `authenticate` is a function parameter.
- `MealSerializer` and `FoodItemSerializer` are not part of this model. So the server-side meal totals and the meal update fields are not modelled.
- EndToEnd.PayloadEntries: assumes the nested creation of meal lines gives one line per payload item. The conversion of quantities to hundredths is a parameter.
- MealStore.CreateMeal: refuses an unknown meal type the way the serializer's field validation would. `choices` itself is not a database constraint.
- Accounts.RegisterPost: the per-field checks (required fields, blank values, unique username, the email format) run before `validate`. They are not part of this model and arrive as an input error body.
- Accounts.RegisterPost: `create_user` also applies Unicode NFKC normalisation to the username. That is not modelled, so the username shown is the stripped one as sent.
- Accounts.NormalizeEmail: Python's `lower()` on the domain is modelled as ASCII lower-casing, as elsewhere in the model.
- Accounts.NormalizeEmail: leaves out the manager's own `strip()` of the address. It repeats the email field's strip, and Text.StripIdempotent shows the repeat changes nothing.
- Accounts.ValidateLogin: the error is the message alone. Its placement under the framework's non-field key is not modelled.
- Accounts.ValidateLogin: takes the credentials as its two `CharField`s hand them on, already stripped; the fields' own blank check is not modelled.
- Base.ErrorBody: only bodies that map fields to strings or lists of strings are represented. A body holding objects (shown as "[object Object]") or a text body such as an HTML error page (split into single characters) is not, so what the screens show for those is not modelled.
- FoodCatalog.InsertFood: the unique-name refusal is an error tag. The framework's wording of it is not modelled.
- FoodCatalog.SearchFoods: case folding is ASCII only, names compare by code point, and database collation is not modelled. Ties in name order are left unordered, as the database leaves them.
- FoodCatalog.NewFood: `sugars`, `fiber` and `sodium` default to 0 and stay optional. No rule reads them.
- MealStore.CreateMeal: takes an existing user as a precondition, because the endpoint admits only authenticated users. Date parsing is not modelled.
- `max_length` limits are stated as the column bounds only. Nothing enforces them in the source's own code.
- Password hashing is not modelled: the created account keeps the stripped password.

## Findings

| source | as written | input that shows it | evidently intended | confidence | as-written member | corrected member |
|---|---|---|---|---|---|---|
| calorie_counter_frontend/src/components/MealLogger.jsx:185 | the key is a template literal with no placeholders, so every line item gets the same key | add food 1, then food 2, then delete food 1: both items disappear | the key is the food id and the clock, joined by a dash | not executed | MealItems.RemovingOneOfTwoDropsBoth | MealItems.RemoveIntendedDropsExactlyOne |
| calorie_counter_frontend/src/components/MealLogger.jsx:278-285 | a response body is checked before the 401 status | a 401 reply carrying a body is shown as flattened messages, and the tokens stay stored | test 401 first, as the food search and the dashboard do | not executed | MealLogger.UnauthorizedWithBodyKeepsSession | MealLogger.ClassifySaveFailureIntended |
| calorie_counter_frontend/src/components/FoodSearch.jsx:47 | the redirects call `NavigationHistoryEntry('/login')`, a browser interface that throws when called as a function | open the food browser with no token: the screen shows "Error fetching food item: " and stays where it is | navigate to the login page, keeping the not-authenticated notice | not executed | FoodSearch.NoTokenHidesLoginNotice | FoodSearch.FetchFoodItemsIntended |

The screen handlers follow the code as written: `MealLogger.AddToMeal` uses the literal key and `MealLogger.SaveMeal` the body-first order. `MealItems.AddFood` takes the key as a parameter, so the same operation runs under the intended key. The lemmas about `MealItems.IntendedKey` prove what that key guarantees. `FoodSearch.FetchFoodItems` keeps the throwing redirects, and `FoodSearch.IntendedDiffersOnlyInRedirects` relates it to the intended fetch.

=== FILE: accounts.dfy ===
/** Sign-up and sign-in on the backend: the registration serializer's
    password rule and user creation, the registration endpoint's choice of
    response, and the login serializer's checks. Password hashing, token
    issuance and Django's `authenticate` are parameters. */
module Accounts {
  import opened Base
  import Text

  const Created: int := 201
  const BadRequest: int := 400
  const InternalError: int := 500

  /** What the registration serializer's fields receive. `email` may be
      absent: the column is `blank=True`, so the generated field is optional. */
  datatype RegistrationData = RegistrationData(username: string, email: Option<string>, password: string, password2: string)

  /** The field pass on values that get through it: every field is a
      `CharField` (the email an `EmailField`), and each strips surrounding
      whitespace before `validate` and `create` see the value. */
  function FieldPass(data: RegistrationData): RegistrationData
  {
    RegistrationData(Text.Strip(data.username),
                     if data.email.Some? then Some(Text.Strip(data.email.value)) else None,
                     Text.Strip(data.password), Text.Strip(data.password2))
  }

  /** The key the mismatch error is reported under, spelled as in the source. */
  const MismatchField: string := "pasword"
  const MismatchMessage: string := "Las dos contraseñas no coinciden."

  /** `UserRegisterSerializer.validate`, on the values the fields hand over. */
  function ValidateRegistration(data: RegistrationData): (r: Result<RegistrationData, ErrorBody>)
    ensures r.Success? <==> data.password == data.password2
    ensures r.Success? ==> r.value == data
    ensures r.Failure? ==> r.error == [FieldErrors(MismatchField, [MismatchMessage])]
  {
    if data.password != data.password2 then Failure([FieldErrors(MismatchField, [MismatchMessage])])
    else Success(data)
  }

  /** The position of the last `c` in `s`, if any. */
  function LastAt(s: string, c: char): (r: Option<nat>)
    ensures r.None? <==> c !in s
    ensures r.Some? ==> r.value < |s| && s[r.value] == c && forall k :: r.value < k < |s| ==> s[k] != c
  {
    if |s| == 0 then None
    else if s[|s| - 1] == c then Some(|s| - 1)
    else LastAt(s[..|s| - 1], c)
  }

  /** `BaseUserManager.normalize_email`: the address is cut at its last '@'
      and the domain after it is lower-cased; an address without '@' is
      returned as given. The manager strips the address first, which
      repeats the field's own strip and so changes nothing
      (`Text.StripIdempotent`); that step is not repeated here. */
  function NormalizeEmail(email: string): (r: string)
    ensures LastAt(email, '@').None? ==> r == email
    ensures |r| == |email|
  {
    var at := LastAt(email, '@');
    if at.None? then email else email[..at.value + 1] + Text.Lower(email[at.value + 1..])
  }

  /** ASCII lower-casing a second time changes nothing. */
  lemma LowerIdempotent(s: string)
    ensures Text.Lower(Text.Lower(s)) == Text.Lower(s)
  {
  }

  /** `LastAt` finds the one occurrence with none after it. */
  lemma LastAtIsLast(s: string, c: char, k: nat)
    requires k < |s| && s[k] == c && forall j :: k < j < |s| ==> s[j] != c
    ensures LastAt(s, c) == Some(k)
  {
    assert s[k] == c;
  }

  /** The local part, up to the last '@', is kept as typed, and the domain
      is lower-cased. */
  lemma NormalizeEmailSplitsAtLastAt(email: string, k: nat)
    requires k < |email| && email[k] == '@'
    requires forall j :: k < j < |email| ==> email[j] != '@'
    ensures NormalizeEmail(email)[..k + 1] == email[..k + 1]
    ensures NormalizeEmail(email)[k + 1..] == Text.Lower(email[k + 1..])
  {
    LastAtIsLast(email, '@', k);
  }

  /** Lower-casing the domain keeps the last '@' where it was. */
  lemma NormalizedKeepsLastAt(email: string, k: nat)
    requires LastAt(email, '@') == Some(k)
    ensures LastAt(email[..k + 1] + Text.Lower(email[k + 1..]), '@') == Some(k)
  {
    var r := email[..k + 1] + Text.Lower(email[k + 1..]);
    assert r[k] == '@';
    forall j | k < j < |r|
      ensures r[j] != '@'
    {
      assert r[j] == Text.LowerChar(email[j]);
    }
    LastAtIsLast(r, '@', k);
  }

  /** Lower-casing an already lower-cased domain gives the address back. */
  lemma RelowerDomain(email: string, k: nat)
    requires k < |email|
    ensures var r := email[..k + 1] + Text.Lower(email[k + 1..]);
            r[..k + 1] + Text.Lower(r[k + 1..]) == r
  {
    var r := email[..k + 1] + Text.Lower(email[k + 1..]);
    assert r[..k + 1] == email[..k + 1];
    assert r[k + 1..] == Text.Lower(email[k + 1..]);
    LowerIdempotent(email[k + 1..]);
  }

  /** Normalising a normalised address changes nothing more, as `create_user`
      relies on when the same user is saved again. */
  lemma NormalizeEmailIdempotent(email: string)
    ensures NormalizeEmail(NormalizeEmail(email)) == NormalizeEmail(email)
  {
    var at := LastAt(email, '@');
    if at.Some? {
      NormalizedKeepsLastAt(email, at.value);
      RelowerDomain(email, at.value);
    }
  }

  /** A created account: the password is kept as the field hands it on
      (hashing is not modelled). */
  datatype Account = Account(id: nat, username: string, email: string, password: string)

  /** `UserRegisterSerializer.create`: `password2` is dropped and
      `create_user` normalises the email. Reading a missing email raises
      `KeyError` before any user is made, shown here as no account. */
  function CreateUser(id: nat, data: RegistrationData): (r: Option<Account>)
    ensures r.Some? <==> data.email.Some?
    ensures r.Some? ==> r.value.id == id && r.value.username == data.username && r.value.password == data.password
  {
    match data.email
    case None => None
    case Some(email) => Some(Account(id, data.username, NormalizeEmail(email), data.password))
  }

  /** The confirmation plays no part in the account created. */
  lemma CreateIgnoresConfirmation(id: nat, data: RegistrationData, other: string)
    ensures CreateUser(id, data.(password2 := other)) == CreateUser(id, data)
  {
  }

  /** `UserSerializer`: the fields shown, never the password. */
  datatype UserView = UserView(id: nat, username: string, email: string)

  function ShowUser(u: Account): UserView
  {
    UserView(u.id, u.username, u.email)
  }

  /** The endpoint's answers; `ServerFailure` is the unhandled `KeyError`. */
  datatype RegisterResponse =
    | CreatedResponse(user: UserView, refresh: string, access: string)
    | ErrorResponse(errors: ErrorBody)
    | ServerFailure

  function Status(r: RegisterResponse): int
  {
    match r
    case CreatedResponse(_, _, _) => Created
    case ErrorResponse(_) => BadRequest
    case ServerFailure => InternalError
  }

  /** `RegisterView.post`. `fieldErrors` are those of the per-field checks
      (required, not blank, unique username, ...), which run before
      `validate` and are not part of this model; `newId` is the id the
      database assigns and `refresh`/`access` the issued tokens. */
  function RegisterPost(data: RegistrationData, fieldErrors: ErrorBody, newId: nat, refresh: string, access: string)
    : (r: RegisterResponse)
    ensures var v := FieldPass(data);
            Status(r) == Created <==> |fieldErrors| == 0 && v.password == v.password2 && v.email.Some?
    ensures var v := FieldPass(data);
            Status(r) == InternalError <==> |fieldErrors| == 0 && v.password == v.password2 && v.email.None?
    ensures |fieldErrors| > 0 ==> r == ErrorResponse(fieldErrors)
    ensures var v := FieldPass(data);
            |fieldErrors| == 0 && v.password != v.password2 ==>
              r == ErrorResponse([FieldErrors(MismatchField, [MismatchMessage])])
    ensures var v := FieldPass(data);
            r.CreatedResponse? ==>
              r.user == UserView(newId, v.username, NormalizeEmail(v.email.value)) && r.refresh == refresh && r.access == access
  {
    if |fieldErrors| > 0 then ErrorResponse(fieldErrors)
    else
      match ValidateRegistration(FieldPass(data))
      case Failure(errors) => ErrorResponse(errors)
      case Success(valid) =>
        match CreateUser(newId, valid)
        case None => ServerFailure
        case Some(u) => CreatedResponse(ShowUser(u), refresh, access)
  }

  /** An error response always carries at least one message. */
  lemma ErrorResponseNamesAField(data: RegistrationData, fieldErrors: ErrorBody, newId: nat, refresh: string, access: string)
    requires forall i :: 0 <= i < |fieldErrors| ==> |fieldErrors[i].messages| > 0
    ensures var r := RegisterPost(data, fieldErrors, newId, refresh, access);
            r.ErrorResponse? ==> |r.errors| > 0 && |r.errors[0].messages| > 0
  {
  }

  /** The same request with whitespace around every field. */
  function Padded(data: RegistrationData, pre: string, post: string): RegistrationData
  {
    RegistrationData(pre + data.username + post,
                     if data.email.Some? then Some(pre + data.email.value + post) else None,
                     pre + data.password + post, pre + data.password2 + post)
  }

  /** The field pass removes exactly the padding. */
  lemma FieldPassIgnoresPadding(data: RegistrationData, pre: string, post: string)
    requires Text.AllSpace(pre) && Text.AllSpace(post)
    ensures FieldPass(Padded(data, pre, post)) == FieldPass(data)
  {
    Text.StripIgnoresPadding(pre, data.username, post);
    Text.StripIgnoresPadding(pre, data.password, post);
    Text.StripIgnoresPadding(pre, data.password2, post);
    if data.email.Some? {
      Text.StripIgnoresPadding(pre, data.email.value, post);
    }
  }

  /** The endpoint sees a request only through its field pass. */
  lemma RegisterPostSeesFieldPass(a: RegistrationData, b: RegistrationData, fieldErrors: ErrorBody,
                                  newId: nat, refresh: string, access: string)
    requires FieldPass(a) == FieldPass(b)
    ensures RegisterPost(a, fieldErrors, newId, refresh, access) == RegisterPost(b, fieldErrors, newId, refresh, access)
  {
  }

  /** Whitespace around the fields never changes the endpoint's answer. */
  lemma PaddingNeverMatters(data: RegistrationData, pre: string, post: string, fieldErrors: ErrorBody,
                            newId: nat, refresh: string, access: string)
    requires Text.AllSpace(pre) && Text.AllSpace(post)
    ensures RegisterPost(Padded(data, pre, post), fieldErrors, newId, refresh, access)
            == RegisterPost(data, fieldErrors, newId, refresh, access)
  {
    FieldPassIgnoresPadding(data, pre, post);
    RegisterPostSeesFieldPass(Padded(data, pre, post), data, fieldErrors, newId, refresh, access);
  }

  /** A password typed with a trailing space matches the confirmation without
      it, and the account keeps the stripped password. */
  lemma TrailingSpaceInPasswordIsAccepted(newId: nat, refresh: string, access: string)
    ensures var data := RegistrationData("ana", Some("ana@x.es"), "pw ", "pw");
            Status(RegisterPost(data, [], newId, refresh, access)) == Created
            && CreateUser(newId, FieldPass(data)).value.password == "pw"
  {
    Text.StripKeepsUnpadded("pw");
    Text.StripIgnoresPadding("", "pw", " ");
    assert "" + "pw" + " " == "pw ";
  }

  /** A mixed-case domain comes out lower-cased; the local part keeps its capital. */
  lemma MixedCaseDomainNormalized(email: string)
    requires email == "Ana@X.ES"
    ensures NormalizeEmail(email) == "Ana@x.es"
  {
    NormalizeEmailSplitsAtLastAt(email, 3);
    LowerDomainExample(email);
    var r := NormalizeEmail(email);
    assert r == r[..4] + r[4..];
  }

  lemma LowerDomainExample(email: string)
    requires email == "Ana@X.ES"
    ensures email[..4] + Text.Lower(email[4..]) == "Ana@x.es"
  {
    assert email[..4] == "Ana@" && email[4..] == "X.ES";
    assert Text.Lower("X.ES") == "x.es";
  }

  /** The response shows the address with its domain lower-cased. */
  lemma MixedCaseDomainShownLower(newId: nat, refresh: string, access: string)
    ensures var r := RegisterPost(RegistrationData("Ana", Some("Ana@X.ES"), "pw", "pw"), [], newId, refresh, access);
            r.CreatedResponse? && r.user.email == "Ana@x.es"
  {
    Text.StripKeepsUnpadded("Ana@X.ES");
    MixedCaseDomainNormalized("Ana@X.ES");
  }

  // ---------------------------------------------------------------------------
  // login
  // ---------------------------------------------------------------------------

  /** What the login serializer's `validate` reads, after its two
      `CharField`s have stripped the values; either may be absent. */
  datatype LoginData = LoginData(username: Option<string>, password: Option<string>)

  const MissingCredentialsMessage: string := "Debe introducir un nomnbre de usuario y una contraseña."
  const InvalidCredentialsMessage: string := "Credenciales inválidas."

  /** The validated data: the input plus the authenticated user. */
  datatype LoginResult = LoginResult(data: LoginData, user: nat)

  /** Present and not the empty string. */
  predicate Given(v: Option<string>)
  {
    v.Some? && v.value != ""
  }

  /** `LoginSerailizer.validate`, with `authenticate` as a parameter. */
  function ValidateLogin(data: LoginData, authenticate: (string, string) -> Option<nat>): (r: Result<LoginResult, string>)
    ensures r.Success? <==>
              Given(data.username) && Given(data.password)
              && authenticate(data.username.value, data.password.value).Some?
    ensures !(Given(data.username) && Given(data.password)) ==> r == Failure(MissingCredentialsMessage)
    ensures Given(data.username) && Given(data.password) && r.Failure? ==> r.error == InvalidCredentialsMessage
    ensures r.Success? ==>
              r.value.data == data && r.value.user == authenticate(data.username.value, data.password.value).value
  {
    if Given(data.username) && Given(data.password) then
      match authenticate(data.username.value, data.password.value)
      case None => Failure(InvalidCredentialsMessage)
      case Some(user) => Success(LoginResult(data, user))
    else Failure(MissingCredentialsMessage)
  }

  /** Missing credentials are refused before anyone is asked to authenticate. */
  lemma MissingCredentialsNeverAuthenticate(data: LoginData, a1: (string, string) -> Option<nat>,
                                            a2: (string, string) -> Option<nat>)
    requires !Given(data.username) || !Given(data.password)
    ensures ValidateLogin(data, a1) == ValidateLogin(data, a2)
  {
  }
}

=== FILE: base.dfy ===
/** Shared building blocks: optional values, results, and the JSON error body
    that the backend returns and the frontend flattens into one message. */
module Base {

  /** A value that may be absent: JavaScript's `null`/`undefined`, Python's `None`. */
  datatype Option<+T> = None | Some(value: T)

  /** The outcome of an operation that may be refused with an error value. */
  datatype Result<+R, +E> = Success(value: R) | Failure(error: E)

  /** One entry of a validation error body: a field name and its messages.
      A field whose JSON value is a single string is a one-message entry,
      which is what the framework produces for dictionary-shaped errors. */
  datatype FieldErrors = FieldErrors(field: string, messages: seq<string>)

  /** A validation error body, fields in the order the backend wrote them.
      Only JSON objects whose values are strings or lists of strings have
      this shape. Two other bodies a request can meet are outside it: an
      entry holding objects (the token endpoint's 401 lists `messages` as
      objects, which the browser joins as "[object Object]"), and a text
      body such as an HTML error page (whose characters `Object.values`
      would list one by one). A failure's body stands for the field-shaped
      kind only. */
  type ErrorBody = seq<FieldErrors>
}

=== FILE: client.dfy ===
/** What every screen of the browser client shares: the stored session, the
    shape of a backend reply, the effects a handler asks the browser to carry
    out (requests and navigation), and the flattening of a validation error
    body into one display message (`Object.values(data).flat().join(' ')`). */
module Client {
  import opened Base
  import Text

  /** The two bearer tokens kept in browser storage. */
  datatype Session = Session(access: Option<string>, refresh: Option<string>)

  /** `getAccessToken()` is truthy: stored, and not the empty string. */
  predicate HasToken(s: Session)
  {
    s.access.Some? && s.access.value != ""
  }

  /** Both `localStorage.removeItem` calls of an expired session. */
  const SignedOut: Session := Session(None, None)

  const Unauthorized: int := 401

  /** Why a request failed: no response at all (network error), or a response
      with a status and a body that is present and truthy or not; a present
      body is a field-shaped `ErrorBody`. */
  datatype Failure = NoResponse | Response(status: int, body: Option<ErrorBody>)

  /** The completion of a request: its data, or its failure. */
  datatype Reply<+T> = Ok(data: T) | Err(failure: Failure)

  predicate IsUnauthorized(f: Failure)
  {
    f.Response? && f.status == Unauthorized
  }

  predicate HasBody(f: Failure)
  {
    f.Response? && f.body.Some?
  }

  /** One line of a meal-creation request: food id and quantity. */
  datatype PayloadItem = PayloadItem(foodItem: nat, quantity: real)

  /** The body of `POST /meals/`. */
  datatype MealPayload = MealPayload(date: string, mealType: string, items: seq<PayloadItem>)

  /** The body of `POST /register/`: exactly these four fields. */
  datatype RegistrationBody = RegistrationBody(username: string, email: string, password: string, password2: string)

  /** What a handler asks of the browser besides updating its own state. */
  datatype Effect =
    | GetFoods(query: string)            // GET /foods/?search=query
    | GetMeals                           // GET /meals/
    | PostMeal(payload: MealPayload)     // POST /meals/
    | PostRegistration(body: RegistrationBody)
    | NavigateToLogin                    // router navigation to /login
    | NavigateToLoginAfter(delayMs: nat) // the same, from a timer

  predicate IsRequest(e: Effect)
  {
    e.GetFoods? || e.GetMeals? || e.PostMeal? || e.PostRegistration?
  }

  /** A handler sent no request at all. */
  predicate NoRequest(effects: seq<Effect>)
  {
    forall i :: 0 <= i < |effects| ==> !IsRequest(effects[i])
  }

  /** The result of one handler: the screen's next state, the session
      afterwards, and the effects in the order they are issued. */
  datatype Step<S> = Step(state: S, session: Session, effects: seq<Effect>)

  /** `Object.values(body).flat()`: all messages, field after field. */
  function AllMessages(body: ErrorBody): seq<string>
  {
    if |body| == 0 then [] else body[0].messages + AllMessages(body[1..])
  }

  /** `Object.values(body).flat().join(' ')`. */
  function Flatten(body: ErrorBody): string
  {
    Text.Join(' ', AllMessages(body))
  }

  lemma {:induction false} AllMessagesAppend(a: ErrorBody, b: ErrorBody)
    ensures AllMessages(a + b) == AllMessages(a) + AllMessages(b)
  {
    if |a| > 0 {
      assert (a + b)[1..] == a[1..] + b;
      AllMessagesAppend(a[1..], b);
    } else {
      assert a + b == b;
    }
  }

  /** For a field-shaped body, flattening loses nothing: when messages hold
      no space, cutting the flattened text at spaces gives back every
      message, field by field, in order. */
  lemma FlattenRoundTrip(body: ErrorBody)
    requires |AllMessages(body)| > 0
    requires forall i :: 0 <= i < |AllMessages(body)| ==> ' ' !in AllMessages(body)[i]
    ensures Text.Split(Flatten(body), ' ') == AllMessages(body)
  {
    Text.SplitJoin(AllMessages(body), ' ');
  }

  /** A single-field, single-message body flattens to that message. */
  lemma FlattenSingle(field: string, message: string)
    ensures Flatten([FieldErrors(field, [message])]) == message
  {
    assert AllMessages([FieldErrors(field, [message])]) == [message];
  }
}

=== FILE: collections.dfy ===
/** Order-preserving filtering and sorting of sequences: the two shapes every
    list transformation of the system takes (`Array.filter`, `QuerySet.filter`,
    `order_by`). */
module Collections {

  // ---------------------------------------------------------------------------
  // filtering
  // ---------------------------------------------------------------------------

  /** The elements of `s` satisfying `keep`, in their original order. */
  function Filter<T>(s: seq<T>, keep: T -> bool): (r: seq<T>)
    ensures |r| <= |s|
    ensures forall i :: 0 <= i < |r| ==> keep(r[i])
    ensures multiset(r) <= multiset(s)
  {
    if |s| == 0 then []
    else
      assert s == [s[0]] + s[1..];
      (if keep(s[0]) then [s[0]] else []) + Filter(s[1..], keep)
  }

  /** Filtering distributes over concatenation, so the kept elements keep
      their relative order. */
  lemma {:induction false} FilterAppend<T>(a: seq<T>, b: seq<T>, keep: T -> bool)
    ensures Filter(a + b, keep) == Filter(a, keep) + Filter(b, keep)
  {
    if |a| > 0 {
      assert (a + b)[1..] == a[1..] + b;
      FilterAppend(a[1..], b, keep);
    } else {
      assert a + b == b;
    }
  }

  /** An element is kept exactly when it is in the input and satisfies `keep`. */
  lemma {:induction false} FilterMembership<T>(s: seq<T>, keep: T -> bool, x: T)
    ensures x in Filter(s, keep) <==> x in s && keep(x)
  {
    if |s| > 0 {
      FilterMembership(s[1..], keep, x);
      assert s == [s[0]] + s[1..];
    }
  }

  /** The multiset of kept elements: the filtered multiset of the input. */
  lemma {:induction false} FilterCount<T>(s: seq<T>, keep: T -> bool, x: T)
    ensures multiset(Filter(s, keep))[x] == if keep(x) then multiset(s)[x] else 0
  {
    if |s| > 0 {
      FilterCount(s[1..], keep, x);
      assert s == [s[0]] + s[1..];
    }
  }

  /** When every element is kept, filtering is the identity. */
  lemma {:induction false} FilterKeepsAll<T>(s: seq<T>, keep: T -> bool)
    requires forall i :: 0 <= i < |s| ==> keep(s[i])
    ensures Filter(s, keep) == s
  {
    if |s| > 0 {
      FilterKeepsAll(s[1..], keep);
      assert s == [s[0]] + s[1..];
    }
  }

  /** Filters with the same verdict on every element of `s` agree. */
  lemma {:induction false} FilterCongruent<T>(s: seq<T>, p: T -> bool, q: T -> bool)
    requires forall i :: 0 <= i < |s| ==> p(s[i]) == q(s[i])
    ensures Filter(s, p) == Filter(s, q)
  {
    if |s| > 0 {
      FilterCongruent(s[1..], p, q);
    }
  }

  // ---------------------------------------------------------------------------
  // keys
  // ---------------------------------------------------------------------------

  /** No two positions of `s` share a key: a unique constraint over rows `s`. */
  predicate UniqueBy<T, K(==)>(s: seq<T>, key: T -> K)
  {
    forall i, j :: 0 <= i < j < |s| ==> key(s[i]) != key(s[j])
  }

  /** Dropping rows never breaks a unique constraint. */
  lemma {:induction false} FilterUniqueBy<T, K>(s: seq<T>, keep: T -> bool, key: T -> K)
    requires UniqueBy(s, key)
    ensures UniqueBy(Filter(s, keep), key)
  {
    if |s| > 0 {
      var tail := s[1..];
      assert forall i :: 0 <= i < |tail| ==> tail[i] == s[i + 1];
      FilterUniqueBy(tail, keep, key);
      var rest := Filter(tail, keep);
      forall k | 0 <= k < |rest| ensures key(s[0]) != key(rest[k]) {
        FilterMembership(tail, keep, rest[k]);
        var j :| 0 <= j < |tail| && tail[j] == rest[k];
        assert s[j + 1] == rest[k];
      }
      assert s == [s[0]] + tail;
    }
  }

  /** A key larger than every key in use. */
  function NextKey<T>(s: seq<T>, key: T -> nat): (n: nat)
    ensures forall i :: 0 <= i < |s| ==> key(s[i]) < n
  {
    if |s| == 0 then 1
    else
      var rest := NextKey(s[1..], key);
      assert forall i :: 1 <= i < |s| ==> s[i] == s[1..][i - 1];
      if key(s[0]) < rest then rest else key(s[0]) + 1
  }

  // ---------------------------------------------------------------------------
  // sorting
  // ---------------------------------------------------------------------------

  ghost predicate Total<T(!new)>(le: (T, T) -> bool)
  {
    forall a, b :: le(a, b) || le(b, a)
  }

  ghost predicate Transitive<T(!new)>(le: (T, T) -> bool)
  {
    forall a, b, c :: le(a, b) && le(b, c) ==> le(a, c)
  }

  predicate SortedBy<T>(s: seq<T>, le: (T, T) -> bool)
  {
    forall i, j :: 0 <= i < j < |s| ==> le(s[i], s[j])
  }

  /** Inserts `x` into a sorted sequence, after every element that sorts before it. */
  function InsertBy<T(!new)>(x: T, s: seq<T>, le: (T, T) -> bool): (r: seq<T>)
    requires Total(le) && Transitive(le)
    requires SortedBy(s, le)
    ensures multiset(r) == multiset(s) + multiset{x}
    ensures SortedBy(r, le)
  {
    if |s| == 0 then [x]
    else if le(x, s[0]) then
      assert forall j :: 0 < j < |[x] + s| ==> le(s[0], ([x] + s)[j]);
      [x] + s
    else
      var tail := InsertBy(x, s[1..], le);
      assert s == [s[0]] + s[1..];
      assert forall y :: y in multiset(tail) ==> y == x || y in s[1..];
      assert forall j :: 0 <= j < |tail| ==> le(s[0], tail[j]) by {
        forall j | 0 <= j < |tail| ensures le(s[0], tail[j]) {
          assert tail[j] in multiset(tail);
        }
      }
      [s[0]] + tail
  }

  /** Insertion sort: a permutation of `s` ordered by `le`, the meaning of an
      `ORDER BY` over the rows `s`. */
  function SortBy<T(!new)>(s: seq<T>, le: (T, T) -> bool): (r: seq<T>)
    requires Total(le) && Transitive(le)
    ensures multiset(r) == multiset(s)
    ensures SortedBy(r, le)
  {
    if |s| == 0 then []
    else
      assert s == [s[0]] + s[1..];
      InsertBy(s[0], SortBy(s[1..], le), le)
  }
}

=== FILE: dashboard.dfy ===
/** The dashboard: the meals of the selected day and their summed totals.
    All of the user's meals are fetched and filtered by date in the client. */
module Dashboard {
  import opened Base
  import opened Client
  import opened Nutrition
  import Collections

  /** A meal as the client receives it from `GET /meals/`; a total may be
      missing (`null`), and the client then counts it as 0. */
  datatype MealSummary = MealSummary(
    id: nat,
    date: string,
    mealType: string,
    totalCalories: Option<real>,
    totalProteins: Option<real>,
    totalFats: Option<real>,
    totalCarbs: Option<real>)

  datatype DashboardState = DashboardState(
    selectedDate: string,
    meals: seq<MealSummary>,
    loading: bool,
    error: string,
    totals: Macros)

  const NotAuthenticatedMessage: string := "No estás autenticado. Por favor, inicia sesión."
  const ExpiredMessage: string := "Sesión expirada o no autorizada. Por favor, inicia sesión de nuevo."
  const LoadFailedMessage: string := "Error al cargar las comidas diarias."

  /** `MEAL_TYPES_DISPLAY`: the label shown for each known meal type. */
  const MealTypesDisplay: map<string, string> := map[
    "desayuno" := "Desayuno",
    "media_manana" := "Media Mañana",
    "almuerzo" := "Almuerzo",
    "merienda" := "Merienda",
    "cena" := "Cena",
    "snack" := "Snack"
  ]

  /** `MEAL_TYPES_DISPLAY[meal.meal_type] || meal.meal_type`. */
  function MealTypeLabel(mealType: string): (shown: string)
    ensures mealType in MealTypesDisplay ==> shown == MealTypesDisplay[mealType]
    ensures mealType !in MealTypesDisplay ==> shown == mealType
  {
    if mealType in MealTypesDisplay && MealTypesDisplay[mealType] != "" then MealTypesDisplay[mealType]
    else mealType
  }

  function OrZero(v: Option<real>): real
  {
    if v.Some? then v.value else 0.0
  }

  /** A meal's four totals, missing ones as 0. */
  function MealMacros(m: MealSummary): Macros
  {
    Macros(OrZero(m.totalCalories), OrZero(m.totalProteins), OrZero(m.totalFats), OrZero(m.totalCarbs))
  }

  predicate OnDate(m: MealSummary, date: string)
  {
    m.date == date
  }

  /** `response.data.filter((meal) => meal.date === date)`. */
  function MealsOn(meals: seq<MealSummary>, date: string): (r: seq<MealSummary>)
    ensures forall i :: 0 <= i < |r| ==> r[i].date == date
    ensures forall m :: m in r <==> m in meals && m.date == date
  {
    var kept := Collections.Filter(meals, m => OnDate(m, date));
    forall m ensures m in kept <==> m in meals && m.date == date {
      Collections.FilterMembership(meals, m => OnDate(m, date), m);
    }
    kept
  }

  /** The filter keeps the original order: it distributes over concatenation. */
  lemma MealsOnAppend(a: seq<MealSummary>, b: seq<MealSummary>, date: string)
    ensures MealsOn(a + b, date) == MealsOn(a, date) + MealsOn(b, date)
  {
    Collections.FilterAppend(a, b, m => OnDate(m, date));
  }

  /** Meals all on the selected date are all kept, in order. */
  lemma MealsOnKeepsSameDay(meals: seq<MealSummary>, date: string)
    requires forall i :: 0 <= i < |meals| ==> meals[i].date == date
    ensures MealsOn(meals, date) == meals
  {
    Collections.FilterKeepsAll(meals, m => OnDate(m, date));
  }

  /** The summed totals of the given meals, missing values as 0. */
  function DailyTotals(meals: seq<MealSummary>): (t: Macros)
    ensures |meals| == 0 ==> t == NoMacros
    ensures |meals| == 1 ==> t == MealMacros(meals[0])
  {
    assert |meals| == 1 ==> SumBy(meals[1..], MealMacros) == NoMacros;
    SumBy(meals, MealMacros)
  }

  /** One more meal adds exactly its four values, missing ones as 0: the
      `forEach` starts from zero and adds each meal's values in turn. */
  lemma DailyTotalsAppend(meals: seq<MealSummary>, m: MealSummary)
    ensures DailyTotals(meals + [m]) == AddMacros(DailyTotals(meals), MealMacros(m))
  {
    SumByAppend(meals, [m], MealMacros);
  }

  /** A meal without any totals leaves the day's totals as they were. */
  lemma MissingTotalsCountAsZero(meals: seq<MealSummary>, m: MealSummary)
    requires m.totalCalories.None? && m.totalProteins.None? && m.totalFats.None? && m.totalCarbs.None?
    ensures DailyTotals(meals + [m]) == DailyTotals(meals)
  {
    DailyTotalsAppend(meals, m);
  }

  /** Meals on other dates do not change the day's totals; meals on the day
      add theirs. */
  lemma DayTotalsAppend(a: seq<MealSummary>, b: seq<MealSummary>, date: string)
    ensures DailyTotals(MealsOn(a + b, date)) == AddMacros(DailyTotals(MealsOn(a, date)), DailyTotals(MealsOn(b, date)))
  {
    MealsOnAppend(a, b, date);
    SumByAppend(MealsOn(a, date), MealsOn(b, date), MealMacros);
  }

  /** Meals of other days, wherever they appear in the reply, change neither
      the day's list nor its totals. */
  lemma OtherDaysDoNotCount(a: seq<MealSummary>, b: seq<MealSummary>, date: string)
    requires forall i :: 0 <= i < |b| ==> b[i].date != date
    ensures MealsOn(a + b, date) == MealsOn(a, date)
    ensures DailyTotals(MealsOn(a + b, date)) == DailyTotals(MealsOn(a, date))
  {
    MealsOnAppend(a, b, date);
    assert MealsOn(b, date) == [];
    assert MealsOn(a, date) + [] == MealsOn(a, date);
  }

  /** The state right before the request: list and totals emptied. */
  function Reset(st: DashboardState): DashboardState
  {
    st.(loading := true, error := "", meals := [], totals := NoMacros)
  }

  /** `fetchDailyMeals(date)`. */
  function FetchDailyMeals(st: DashboardState, date: string, session: Session, reply: Reply<seq<MealSummary>>)
    : (r: Step<DashboardState>)
    ensures !r.state.loading && r.state.selectedDate == st.selectedDate
    ensures !HasToken(session) ==>
              r.effects == [NavigateToLogin] && r.session == session
              && r.state.meals == [] && r.state.totals == NoMacros && r.state.error == NotAuthenticatedMessage
    ensures HasToken(session) ==> |r.effects| > 0 && r.effects[0] == GetMeals
    ensures HasToken(session) && reply.Ok? ==>
              && r.effects == [GetMeals] && r.session == session && r.state.error == ""
              && r.state.meals == MealsOn(reply.data, date)
              && r.state.totals == DailyTotals(MealsOn(reply.data, date))
    ensures HasToken(session) && reply.Err? ==>
              && r.state.meals == [] && r.state.totals == NoMacros
              && (IsUnauthorized(reply.failure) ==>
                    r.session == SignedOut && r.effects == [GetMeals, NavigateToLogin]
                    && r.state.error == ExpiredMessage)
              && (!IsUnauthorized(reply.failure) ==>
                    r.session == session && r.effects == [GetMeals] && r.state.error == LoadFailedMessage)
  {
    var reset := Reset(st);
    if !HasToken(session) then
      Step(reset.(error := NotAuthenticatedMessage, loading := false), session, [NavigateToLogin])
    else
      match reply
      case Ok(all) =>
        var kept := MealsOn(all, date);
        Step(reset.(meals := kept, totals := DailyTotals(kept), loading := false), session, [GetMeals])
      case Err(f) =>
        if IsUnauthorized(f) then
          Step(reset.(error := ExpiredMessage, loading := false), SignedOut, [GetMeals, NavigateToLogin])
        else
          Step(reset.(error := LoadFailedMessage, loading := false), session, [GetMeals])
  }

  /** Whatever was shown before, a fetch shows only its own outcome. */
  lemma FetchForgetsPreviousDay(st1: DashboardState, st2: DashboardState, date: string, session: Session,
                                reply: Reply<seq<MealSummary>>)
    requires st1.selectedDate == st2.selectedDate
    ensures FetchDailyMeals(st1, date, session, reply) == FetchDailyMeals(st2, date, session, reply)
  {
  }

  /** Without a token nothing is requested and no reply matters. */
  lemma FetchWithoutTokenIgnoresReply(st: DashboardState, date: string, session: Session,
                                      reply1: Reply<seq<MealSummary>>, reply2: Reply<seq<MealSummary>>)
    requires !HasToken(session)
    ensures FetchDailyMeals(st, date, session, reply1) == FetchDailyMeals(st, date, session, reply2)
    ensures NoRequest(FetchDailyMeals(st, date, session, reply1).effects)
  {
  }

  /** `handleDateChange`, then the effect that refetches for the new date:
      the screen shows that date's meals only. Where no username is stored,
      that effect also navigates to the login page itself when there is no
      token, before the fetch does the same; so the source navigates twice
      there and this model once. The stored username is not part of this
      model. */
  function ChangeDate(st: DashboardState, date: string, session: Session, reply: Reply<seq<MealSummary>>)
    : (r: Step<DashboardState>)
    ensures r.state.selectedDate == date
    ensures HasToken(session) && reply.Ok? ==>
              forall i :: 0 <= i < |r.state.meals| ==> r.state.meals[i].date == date
  {
    FetchDailyMeals(st.(selectedDate := date), date, session, reply)
  }
}

=== FILE: end_to_end.dfy ===
/** Properties that span the browser client and the backend: what one side
    sends, the other accepts; the tables of meal types the screens and the
    database use agree. */
module EndToEnd {
  import opened Base
  import opened Client
  import Collections
  import Nutrition
  import MealItems
  import MealLogger
  import Dashboard
  import FoodSearch
  import RegisterForm
  import FoodCatalog
  import MealStore
  import Accounts

  /** The server's view of the registration body the client sends. */
  function AsReceived(b: RegistrationBody): Accounts.RegistrationData
  {
    Accounts.RegistrationData(b.username, Some(b.email), b.password, b.password2)
  }

  /** Every registration the sign-up form sends passes the server's password
      rule: the client checks the same thing first. */
  lemma SentRegistrationsPassPasswordRule(form: RegisterForm.Form, session: Session, reply: Reply<()>, i: int)
    requires var effects := RegisterForm.HandleSubmit(form, session, reply).effects;
             0 <= i < |effects| && effects[i].PostRegistration?
    ensures var b := RegisterForm.HandleSubmit(form, session, reply).effects[i].body;
            Accounts.ValidateRegistration(Accounts.FieldPass(AsReceived(b))) == Success(Accounts.FieldPass(AsReceived(b)))
  {
    var b := RegisterForm.HandleSubmit(form, session, reply).effects[i].body;
    assert b.password == b.password2;
    var v := Accounts.FieldPass(AsReceived(b));
    assert v.password == v.password2;
  }

  /** Were the server to reject a mismatch anyway, the form would show its one
      message after the prefix; the misspelled key never reaches the screen. */
  lemma ServerMismatchAsShown(form: RegisterForm.Form, session: Session, data: Accounts.RegistrationData)
    requires form.password == form.password2 && data.password != data.password2
    ensures var body := Accounts.ValidateRegistration(data).error;
            RegisterForm.HandleSubmit(form, session, Err(Response(400, Some(body)))).state.error
            == RegisterForm.ErrorPrefix + Accounts.MismatchMessage
  {
    FlattenSingle(Accounts.MismatchField, Accounts.MismatchMessage);
  }

  /** "Show all" asks for the empty search, which the server answers with
      every food, in name order. */
  lemma ShowAllListsEveryFood(st: FoodSearch.FoodSearchState, session: Session, reply: Reply<seq<Nutrition.Food>>,
                              foods: seq<FoodCatalog.FoodItem>)
    requires HasToken(session)
    ensures var step := FoodSearch.ShowAll(st, session, reply);
            step.effects[0].GetFoods?
            && FoodCatalog.SearchFoods(foods, Some(step.effects[0].query)) == FoodCatalog.SearchFoods(foods, None)
            && multiset(FoodCatalog.SearchFoods(foods, Some(step.effects[0].query))) == multiset(foods)
  {
    FoodCatalog.EmptyQueryListsAll(foods);
  }

  /** The meal lines the server would store for a payload: one per item, in
      order, with the quantity converted by `toHundredths`. */
  function PayloadEntries(meal: nat, firstId: nat, items: seq<PayloadItem>, toHundredths: real -> int)
    : (r: seq<MealStore.MealFoodItem>)
    ensures |r| == |items|
    ensures forall i :: 0 <= i < |r| ==> r[i].meal == meal && r[i].food == items[i].foodItem
  {
    seq(|items|, i requires 0 <= i < |items| =>
      MealStore.MealFoodItem(firstId + i, meal, items[i].foodItem, toHundredths(items[i].quantity)))
  }

  /** A saved meal never breaks the one-line-per-food rule: the logger's
      invariant makes the payload's foods distinct, hence the (meal, food)
      pairs of its lines. */
  lemma SavedMealFitsMealLineRule(st: MealLogger.LoggerState, meal: nat, firstId: nat, toHundredths: real -> int)
    requires MealLogger.Invariant(st)
    ensures Collections.UniqueBy(PayloadEntries(meal, firstId, MealLogger.SavePayload(st).items, toHundredths),
                                 MealStore.EntryKey)
  {
    MealLogger.PayloadFoodsDistinct(st);
    var r := PayloadEntries(meal, firstId, MealLogger.SavePayload(st).items, toHundredths);
    forall i, j | 0 <= i < j < |r| ensures MealStore.EntryKey(r[i]) != MealStore.EntryKey(r[j]) {
      assert r[i].food != r[j].food;
    }
  }

  /** The logger's selector, the dashboard's labels and the database's
      choices name the same six meal types with the same labels. */
  lemma MealTypeTablesAgree()
    ensures MealLogger.MealTypeOptions == MealStore.MealTypeChoices
    ensures forall i :: 0 <= i < |MealStore.MealTypeChoices| ==>
              MealStore.MealTypeChoices[i].0 in Dashboard.MealTypesDisplay
              && Dashboard.MealTypeLabel(MealStore.MealTypeChoices[i].0) == MealStore.MealTypeChoices[i].1
    ensures forall t :: t in Dashboard.MealTypesDisplay <==> MealStore.IsMealType(t)
  {
    var c := MealStore.MealTypeChoices;
    forall t | t in Dashboard.MealTypesDisplay ensures MealStore.IsMealType(t) {
      if t == "desayuno" { assert c[0].0 == t; }
      else if t == "media_manana" { assert c[1].0 == t; }
      else if t == "almuerzo" { assert c[2].0 == t; }
      else if t == "merienda" { assert c[3].0 == t; }
      else if t == "cena" { assert c[4].0 == t; }
      else { assert c[5].0 == t; }
    }
  }

  /** The logger's default meal type is one the database accepts. */
  lemma InitialMealTypeIsAChoice(today: string)
    ensures MealStore.IsMealType(MealLogger.Initial(today).mealType)
  {
    assert MealStore.MealTypeChoices[0].0 == MealLogger.InitialMealType;
  }
}

=== FILE: food_catalog.dfy ===
/** The food table of the backend: field defaults, the uniqueness of names,
    the `is_custom` rule applied on every save, and the list endpoint's
    name-or-brand search, returned in the model's default order (by name).
    Decimal columns are integers counting hundredths. */
module FoodCatalog {
  import opened Base
  import Text
  import Collections

  /** `max_digits=7, decimal_places=2`: at most 99999.99, in hundredths. */
  const NutrientBound: int := 10_000_000
  const NameMaxLength: nat := 255
  const UnitMaxLength: nat := 50

  const DefaultPortionSize: int := 10000   // 100.00
  const DefaultPortionUnit: string := "g"

  /** A row of `FoodItem`. `createdBy` is the creating user's id, if any. */
  datatype FoodItem = FoodItem(
    id: nat,
    name: string,
    brand: Option<string>,
    portionSize: int,
    portionUnit: string,
    calories: int,
    proteins: int,
    fats: int,
    carbs: int,
    sugars: Option<int>,
    fiber: Option<int>,
    sodium: Option<int>,
    createdBy: Option<nat>,
    isCustom: bool)

  predicate FitsDecimal(v: int)
  {
    -NutrientBound < v < NutrientBound
  }

  predicate OptionalFitsDecimal(v: Option<int>)
  {
    v.None? || FitsDecimal(v.value)
  }

  /** What the column types admit. */
  predicate WellFormed(f: FoodItem)
  {
    && |f.name| <= NameMaxLength
    && (f.brand.Some? ==> |f.brand.value| <= NameMaxLength)
    && |f.portionUnit| <= UnitMaxLength
    && FitsDecimal(f.portionSize)
    && FitsDecimal(f.calories) && FitsDecimal(f.proteins) && FitsDecimal(f.fats) && FitsDecimal(f.carbs)
    && OptionalFitsDecimal(f.sugars) && OptionalFitsDecimal(f.fiber) && OptionalFitsDecimal(f.sodium)
  }

  /** A food given only its name (and creator): every other field at its
      declared default. */
  function NewFood(id: nat, name: string, createdBy: Option<nat>): (f: FoodItem)
    ensures |name| <= NameMaxLength ==> WellFormed(f)
    ensures !f.isCustom && f.brand.None? && f.name == name && f.createdBy == createdBy
    ensures f.portionSize == DefaultPortionSize && f.portionUnit == DefaultPortionUnit
    ensures f.calories == 0 && f.proteins == 0 && f.fats == 0 && f.carbs == 0
    ensures f.sugars == Some(0) && f.fiber == Some(0) && f.sodium == Some(0)
  {
    FoodItem(id, name, None, DefaultPortionSize, DefaultPortionUnit,
             0, 0, 0, 0, Some(0), Some(0), Some(0), createdBy, false)
  }

  /** `FoodItem.save`: a food with a creator is marked custom. */
  function Save(f: FoodItem): (r: FoodItem)
    ensures r == f.(isCustom := r.isCustom)
    ensures r.isCustom <==> f.isCustom || f.createdBy.Some?
  {
    if f.createdBy.Some? && !f.isCustom then f.(isCustom := true) else f
  }

  /** Saving twice is saving once. */
  lemma SaveIdempotent(f: FoodItem)
    ensures Save(Save(f)) == Save(f)
  {
  }

  /** Without a creator, saving changes nothing. */
  lemma SaveWithoutCreatorIsIdentity(f: FoodItem)
    requires f.createdBy.None?
    ensures Save(f) == f
  {
  }

  /** A new food keeps `is_custom` false exactly when nobody created it. */
  lemma NewFoodCustomIffCreated(id: nat, name: string, createdBy: Option<nat>)
    ensures Save(NewFood(id, name, createdBy)).isCustom <==> createdBy.Some?
  {
  }

  // ---------------------------------------------------------------------------
  // the table
  // ---------------------------------------------------------------------------

  function FoodId(f: FoodItem): nat
  {
    f.id
  }

  function FoodName(f: FoodItem): string
  {
    f.name
  }

  /** `unique=True` on the name column. */
  predicate UniqueNames(foods: seq<FoodItem>)
  {
    Collections.UniqueBy(foods, FoodName)
  }

  predicate UniqueIds(foods: seq<FoodItem>)
  {
    Collections.UniqueBy(foods, FoodId)
  }

  /** What every stored food satisfies: rows as the columns admit, distinct
      ids and names, and a creator only on custom foods. */
  predicate Valid(foods: seq<FoodItem>)
  {
    && UniqueIds(foods) && UniqueNames(foods)
    && (forall i :: 0 <= i < |foods| ==> WellFormed(foods[i]))
    && (forall i :: 0 <= i < |foods| ==> foods[i].createdBy.Some? ==> foods[i].isCustom)
  }

  predicate NameTaken(foods: seq<FoodItem>, name: string)
  {
    exists i :: 0 <= i < |foods| && foods[i].name == name
  }

  /** Why the table refuses a row. Only the unique name is checked here; the
      wording of the framework's message is not part of this model. */
  datatype InsertError = NameInUse

  /** Inserting a food: saved with a fresh id, or refused on a name in use. */
  function InsertFood(foods: seq<FoodItem>, f: FoodItem): (r: Result<seq<FoodItem>, InsertError>)
    ensures r.Failure? <==> NameTaken(foods, f.name)
    ensures r.Success? ==> |r.value| == |foods| + 1 && r.value[..|foods|] == foods
    ensures r.Success? ==> var g := r.value[|foods|];
              g == Save(f).(id := g.id) && forall i :: 0 <= i < |foods| ==> foods[i].id != g.id
  {
    if NameTaken(foods, f.name) then Failure(NameInUse)
    else Success(foods + [Save(f).(id := Collections.NextKey(foods, FoodId))])
  }

  /** Inserting keeps the table valid. */
  lemma InsertKeepsValid(foods: seq<FoodItem>, f: FoodItem)
    requires Valid(foods) && WellFormed(f)
    requires InsertFood(foods, f).Success?
    ensures Valid(InsertFood(foods, f).value)
  {
    var r := InsertFood(foods, f).value;
    forall i, j | 0 <= i < j < |r| ensures r[i].name != r[j].name {
      if j == |foods| {
        assert !(foods[i].name == f.name);
      }
    }
  }

  // ---------------------------------------------------------------------------
  // search
  // ---------------------------------------------------------------------------

  /** `name__icontains=q` or `brand__icontains=q`; a missing brand never matches. */
  predicate Matches(f: FoodItem, q: string)
  {
    Text.ContainsIgnoringCase(f.name, q) || (f.brand.Some? && Text.ContainsIgnoringCase(f.brand.value, q))
  }

  /** The default ordering, `ordering = ['name']`. */
  predicate NameLe(a: FoodItem, b: FoodItem)
  {
    Text.StrLe(a.name, b.name)
  }

  lemma NameLeIsTotalOrder()
    ensures Collections.Total(NameLe) && Collections.Transitive(NameLe)
  {
    forall a: FoodItem, b: FoodItem ensures NameLe(a, b) || NameLe(b, a) {
      Text.StrLeTotal(a.name, b.name);
    }
    forall a: FoodItem, b: FoodItem, c: FoodItem | NameLe(a, b) && NameLe(b, c) ensures NameLe(a, c) {
      Text.StrLeTransitive(a.name, b.name, c.name);
    }
  }

  /** The foods in default order. */
  function ByName(foods: seq<FoodItem>): (r: seq<FoodItem>)
    ensures multiset(r) == multiset(foods)
    ensures Collections.SortedBy(r, NameLe)
  {
    NameLeIsTotalOrder();
    Collections.SortBy(foods, NameLe)
  }

  /** `FoodItemListViewCreate.get_queryset` with the `search` parameter, if given. */
  function SearchFoods(foods: seq<FoodItem>, search: Option<string>): (r: seq<FoodItem>)
    ensures Collections.SortedBy(r, NameLe)
    ensures search.None? ==> multiset(r) == multiset(foods)
    ensures search.Some? ==> multiset(r) == multiset(Collections.Filter(foods, f => Matches(f, search.value)))
  {
    match search
    case None => ByName(foods)
    case Some(q) => ByName(Collections.Filter(foods, f => Matches(f, q)))
  }

  /** Exactly the matching foods are listed. */
  lemma SearchMembership(foods: seq<FoodItem>, q: string, f: FoodItem)
    ensures f in SearchFoods(foods, Some(q)) <==> f in foods && Matches(f, q)
  {
    var kept := Collections.Filter(foods, g => Matches(g, q));
    Collections.FilterMembership(foods, g => Matches(g, q), f);
    assert f in SearchFoods(foods, Some(q)) <==> f in multiset(kept);
  }

  /** Each listed food appears as often as in the table: once, ids being unique. */
  lemma SearchCount(foods: seq<FoodItem>, q: string, f: FoodItem)
    ensures multiset(SearchFoods(foods, Some(q)))[f] == if Matches(f, q) then multiset(foods)[f] else 0
  {
    Collections.FilterCount(foods, g => Matches(g, q), f);
  }

  /** The empty query (what "show all" sends) lists the same foods as no query:
      every name contains the empty string. */
  lemma EmptyQueryListsAll(foods: seq<FoodItem>)
    ensures SearchFoods(foods, Some("")) == SearchFoods(foods, None)
  {
    forall i | 0 <= i < |foods| ensures Matches(foods[i], "") {
      Text.ContainsEmpty(Text.Lower(foods[i].name));
    }
    Collections.FilterKeepsAll(foods, f => Matches(f, ""));
  }

  /** Matching ignores the case of the query. */
  lemma SearchIgnoresQueryCase(foods: seq<FoodItem>, q: string)
    ensures SearchFoods(foods, Some(q)) == SearchFoods(foods, Some(Text.Lower(q)))
  {
    Text.LowerIdempotent(q);
    Collections.FilterCongruent(foods, f => Matches(f, q), f => Matches(f, Text.Lower(q)));
  }
}

=== FILE: food_search.dfy ===
/** The food browser: every fetch starts from an empty list and no selection,
    then shows the reply, a "not found" notice, or a classified failure. */
module FoodSearch {
  import opened Base
  import opened Client
  import opened Nutrition

  datatype FoodSearchState = FoodSearchState(
    searchTerm: string,
    items: seq<Food>,
    loading: bool,
    error: string,
    selected: Option<Food>)

  const NotAuthenticatedMessage: string := "No estás autenticado. Por favor, inicia sesión."
  const NotFoundMessage: string := "No se encontraron alimentos con ese término de búsqueda."
  const ExpiredMessage: string := "Sesión expirada o no autorizada. Por favor, inicia sesión de nuevo."
  const SearchErrorPrefix: string := "Error al buscar alimentos: "
  /** `setError('Error fetching food item: ', err)`: the setter keeps only its
      first argument, so the error object never reaches the message. */
  const FetchFailedMessage: string := "Error fetching food item: "

  const Initial: FoodSearchState := FoodSearchState("", [], false, "", None)

  /** The message a failed fetch shows, and whether it clears the session. */
  datatype FetchFailureReport = FetchFailureReport(message: string, signOut: bool)

  /** The `catch` branch of `fetchFoodItems`: 401 first, then a body, then the
      generic text. */
  function ClassifyFetchFailure(f: Failure): (r: FetchFailureReport)
    ensures r.signOut <==> IsUnauthorized(f)
    ensures IsUnauthorized(f) ==> r.message == ExpiredMessage
    ensures !IsUnauthorized(f) && HasBody(f) ==> r.message == SearchErrorPrefix + Flatten(f.body.value)
    ensures !IsUnauthorized(f) && !HasBody(f) ==> r.message == FetchFailedMessage
  {
    if f.Response? && f.status == Unauthorized then FetchFailureReport(ExpiredMessage, true)
    else if f.Response? && f.body.Some? then FetchFailureReport(SearchErrorPrefix + Flatten(f.body.value), false)
    else FetchFailureReport(FetchFailedMessage, false)
  }

  /** Unlike the meal logger's save, a 401 here signs out whatever its body. */
  lemma UnauthorizedAlwaysSignsOut(body: Option<ErrorBody>)
    ensures ClassifyFetchFailure(Response(Unauthorized, body)) == FetchFailureReport(ExpiredMessage, true)
  {
  }

  /** `fetchFoodItems(query)` as written. Both redirects call
      `NavigationHistoryEntry('/login')`. That name is not imported and is
      not a function: it is the browser's Navigation API interface, and
      calling it without `new` throws (a `TypeError`, or a `ReferenceError`
      where the interface is missing). So no redirect ever happens:
      - with no token the call throws inside the `try`, and the `catch`
        finds no response and overwrites the notice with the bare generic
        text;
      - on a 401 the call throws inside the `catch`, after both tokens are
        removed and the expired notice is set; `finally` still clears the
        loading flag, and the rejection leaves the handler. */
  function FetchFoodItems(st: FoodSearchState, query: string, session: Session, reply: Reply<seq<Food>>)
    : (r: Step<FoodSearchState>)
    ensures r.state.searchTerm == st.searchTerm && r.state.selected.None? && !r.state.loading
    ensures !HasToken(session) ==>
              r.effects == [] && r.session == session
              && r.state.items == [] && r.state.error == FetchFailedMessage
    ensures HasToken(session) ==> |r.effects| > 0 && r.effects[0] == GetFoods(query)
    ensures HasToken(session) && reply.Ok? ==>
              && r.effects == [GetFoods(query)] && r.session == session
              && r.state.items == reply.data
              && (r.state.error == NotFoundMessage <==> |reply.data| == 0 && |query| > 0)
              && (r.state.error != NotFoundMessage ==> r.state.error == "")
    ensures HasToken(session) && reply.Err? ==>
              && r.effects == [GetFoods(query)] && r.state.items == []
              && r.state.error == ClassifyFetchFailure(reply.failure).message
              && (r.session == SignedOut <==> IsUnauthorized(reply.failure))
              && (!IsUnauthorized(reply.failure) ==> r.session == session)
  {
    var reset := st.(loading := true, error := "", items := [], selected := None);
    if !HasToken(session) then
      // the throw is caught as an error without a response
      Step(reset.(error := ClassifyFetchFailure(NoResponse).message, loading := false), session, [])
    else
      var request := GetFoods(query);
      match reply
      case Ok(foods) =>
        var shown := reset.(items := foods, loading := false);
        if |foods| == 0 && |query| > 0 then Step(shown.(error := NotFoundMessage), session, [request])
        else Step(shown, session, [request])
      case Err(f) =>
        var report := ClassifyFetchFailure(f);
        Step(reset.(error := report.message, loading := false), if report.signOut then SignedOut else session, [request])
  }

  /** Without a token the screen shows the bare generic text, not the
      not-authenticated notice, and nothing navigates. */
  lemma NoTokenHidesLoginNotice(st: FoodSearchState, query: string, session: Session, reply: Reply<seq<Food>>)
    requires !HasToken(session)
    ensures var r := FetchFoodItems(st, query, session, reply);
            r.state.error != NotAuthenticatedMessage && NavigateToLogin !in r.effects
  {
  }

  /** A 401 signs out but leaves the user on the screen. */
  lemma UnauthorizedStaysOnScreen(st: FoodSearchState, query: string, session: Session, body: Option<ErrorBody>)
    requires HasToken(session)
    ensures var r := FetchFoodItems(st, query, session, Err(Response(Unauthorized, body)));
            r.session == SignedOut && NavigateToLogin !in r.effects
  {
  }

  /** `fetchFoodItems` as evidently intended: both redirects reach the login
      page, and the not-authenticated notice stays. */
  function FetchFoodItemsIntended(st: FoodSearchState, query: string, session: Session, reply: Reply<seq<Food>>)
    : (r: Step<FoodSearchState>)
    ensures !HasToken(session) ==>
              r.effects == [NavigateToLogin] && r.session == session
              && r.state.items == [] && r.state.error == NotAuthenticatedMessage
    ensures HasToken(session) && reply.Err? && IsUnauthorized(reply.failure) ==>
              r.session == SignedOut && r.effects == [GetFoods(query), NavigateToLogin]
              && r.state.error == ExpiredMessage
  {
    var reset := st.(loading := true, error := "", items := [], selected := None);
    if !HasToken(session) then
      Step(reset.(error := NotAuthenticatedMessage, loading := false), session, [NavigateToLogin])
    else
      var request := GetFoods(query);
      match reply
      case Ok(foods) =>
        var shown := reset.(items := foods, loading := false);
        if |foods| == 0 && |query| > 0 then Step(shown.(error := NotFoundMessage), session, [request])
        else Step(shown, session, [request])
      case Err(f) =>
        var report := ClassifyFetchFailure(f);
        if report.signOut then
          Step(reset.(error := report.message, loading := false), SignedOut, [request, NavigateToLogin])
        else
          Step(reset.(error := report.message, loading := false), session, [request])
  }

  /** The two versions differ only where a redirect is due: there the
      intended one navigates, and without a token it keeps its notice. */
  lemma IntendedDiffersOnlyInRedirects(st: FoodSearchState, query: string, session: Session, reply: Reply<seq<Food>>)
    ensures var a, b := FetchFoodItems(st, query, session, reply), FetchFoodItemsIntended(st, query, session, reply);
            && a.session == b.session
            && a.state == b.state.(error := a.state.error)
            && (HasToken(session) ==> a.state == b.state)
            && (!HasToken(session) ==> a.effects == [] && b.effects == [NavigateToLogin])
            && (HasToken(session) && reply.Err? && IsUnauthorized(reply.failure) ==>
                  b.effects == a.effects + [NavigateToLogin])
            && (HasToken(session) && !(reply.Err? && IsUnauthorized(reply.failure)) ==> a.effects == b.effects)
  {
  }

  /** The previous list, error and selection never survive a fetch. */
  lemma FetchForgetsPreviousResults(st1: FoodSearchState, st2: FoodSearchState, query: string, session: Session,
                                    reply: Reply<seq<Food>>)
    requires st1.searchTerm == st2.searchTerm
    ensures FetchFoodItems(st1, query, session, reply) == FetchFoodItems(st2, query, session, reply)
  {
  }

  /** The empty query lists everything it is given and never reports "not found". */
  lemma EmptyQueryNeverNotFound(st: FoodSearchState, session: Session, foods: seq<Food>)
    requires HasToken(session)
    ensures FetchFoodItems(st, "", session, Ok(foods)).state.error == ""
    ensures FetchFoodItems(st, "", session, Ok(foods)).state.items == foods
  {
  }

  /** Without a token nothing is requested and no reply matters. */
  lemma FetchWithoutTokenIgnoresReply(st: FoodSearchState, query: string, session: Session,
                                      reply1: Reply<seq<Food>>, reply2: Reply<seq<Food>>)
    requires !HasToken(session)
    ensures FetchFoodItems(st, query, session, reply1) == FetchFoodItems(st, query, session, reply2)
    ensures NoRequest(FetchFoodItems(st, query, session, reply1).effects)
  {
  }

  /** The mount effect: `fetchFoodItems()` with the default empty query. */
  function Mount(session: Session, reply: Reply<seq<Food>>): (r: Step<FoodSearchState>)
    ensures HasToken(session) ==> |r.effects| > 0 && r.effects[0] == GetFoods("")
    ensures HasToken(session) && reply.Ok? ==> r.state.items == reply.data && r.state.error == ""
  {
    FetchFoodItems(Initial, "", session, reply)
  }

  /** `handleSearchSubmit`: the current term, of any length, is sent. */
  function SubmitSearch(st: FoodSearchState, session: Session, reply: Reply<seq<Food>>): (r: Step<FoodSearchState>)
    ensures HasToken(session) ==> |r.effects| > 0 && r.effects[0] == GetFoods(st.searchTerm)
    ensures r.state.searchTerm == st.searchTerm
  {
    FetchFoodItems(st, st.searchTerm, session, reply)
  }

  /** Even a one-character term reaches the server: there is no minimum length. */
  lemma ShortTermsAreSent(st: FoodSearchState, session: Session, reply: Reply<seq<Food>>)
    requires HasToken(session) && |st.searchTerm| == 1
    ensures !NoRequest(SubmitSearch(st, session, reply).effects)
  {
    assert IsRequest(SubmitSearch(st, session, reply).effects[0]);
  }

  /** Typing only edits the term; nothing is fetched until submit. */
  function EditTerm(st: FoodSearchState, term: string): (r: FoodSearchState)
    ensures r.searchTerm == term
    ensures r.items == st.items && r.error == st.error && r.selected == st.selected && r.loading == st.loading
  {
    st.(searchTerm := term)
  }

  /** `handleFoodClick`: the food's details replace the list view. */
  function ShowDetails(st: FoodSearchState, food: Food): (r: FoodSearchState)
    ensures r.selected == Some(food)
    ensures r.items == st.items && r.searchTerm == st.searchTerm && r.error == st.error && r.loading == st.loading
  {
    st.(selected := Some(food))
  }

  /** `handleBackToList`: no selection, then a fetch with the empty query
      (the term in the box is left as it was). */
  function BackToList(st: FoodSearchState, session: Session, reply: Reply<seq<Food>>): (r: Step<FoodSearchState>)
    ensures r.state.selected.None? && r.state.searchTerm == st.searchTerm
    ensures HasToken(session) ==> |r.effects| > 0 && r.effects[0] == GetFoods("")
    ensures HasToken(session) && reply.Ok? ==> r.state.items == reply.data && r.state.error == ""
  {
    FetchFoodItems(st.(selected := None), "", session, reply)
  }

  /** "Mostrar todos": the term is emptied and the empty query fetched. */
  function ShowAll(st: FoodSearchState, session: Session, reply: Reply<seq<Food>>): (r: Step<FoodSearchState>)
    ensures r.state.searchTerm == "" && r.state.selected.None?
    ensures HasToken(session) ==> |r.effects| > 0 && r.effects[0] == GetFoods("")
    ensures HasToken(session) && reply.Ok? ==> r.state.items == reply.data && r.state.error == ""
  {
    FetchFoodItems(st.(searchTerm := ""), "", session, reply)
  }

  /** Going back and showing all differ only in the term left in the box. */
  lemma BackToListIsShowAllKeepingTerm(st: FoodSearchState, session: Session, reply: Reply<seq<Food>>)
    ensures BackToList(st, session, reply).state == ShowAll(st, session, reply).state.(searchTerm := st.searchTerm)
    ensures BackToList(st, session, reply).effects == ShowAll(st, session, reply).effects
    ensures BackToList(st, session, reply).session == ShowAll(st, session, reply).session
  {
  }
}

=== FILE: meal_items.dfy ===
/** The list of line items of the meal being composed, and the three list
    operations of the meal logger: add (with quantity validation and
    duplicate-food rejection), update a quantity by key, remove by key.

    Every item added by the logger gets the same key, `UniqueIdLiteral`: the
    template literal meant to combine the food id with the clock has no
    placeholders. Update and remove therefore reach every item carrying that
    key. `IntendedKey` is the key the literal was evidently meant to build,
    and the lemmas at the end show what it would guarantee. */
module MealItems {
  import opened Base
  import opened Nutrition
  import Text
  import Collections

  /** The key every added item receives, character for character. */
  const UniqueIdLiteral: string := "<span class=\"math-inline\">{foodToAddToMeal.id}-</span>{Date.now()}"

  const InvalidQuantityMessage: string := "Por favor, ingrese una cantidad válida."
  const DuplicateFoodMessage: string := "Este alimento ya está en tu comida. Edita la cantidad directamente en la comida."

  /** A quantity the logger accepts: present and strictly positive. */
  predicate ValidQuantity(q: Option<real>)
  {
    q.Some? && q.value > 0.0
  }

  predicate HasFood(items: seq<LineItem>, foodId: nat)
  {
    exists i :: 0 <= i < |items| && items[i].food.id == foodId
  }

  /** At most one line item per food. */
  predicate DistinctFoods(items: seq<LineItem>)
  {
    forall i, j :: 0 <= i < j < |items| ==> items[i].food.id != items[j].food.id
  }

  /** Every item's macros are those of its current quantity. */
  ghost predicate MacrosUpToDate(items: seq<LineItem>)
  {
    forall i :: 0 <= i < |items| ==> items[i].macros == CalculateMacros(Some(items[i].food), Some(items[i].quantity))
  }

  // ---------------------------------------------------------------------------
  // add
  // ---------------------------------------------------------------------------

  /** `handleAddFoodToMealList` on the list: the pending food with the pending
      quantity is appended under `key`, or the list is refused with a message. */
  function AddFood(items: seq<LineItem>, pending: Option<Food>, quantity: Option<real>, key: string)
    : (r: Result<seq<LineItem>, string>)
    ensures r.Success? <==> pending.Some? && ValidQuantity(quantity) && !HasFood(items, pending.value.id)
    ensures pending.None? || !ValidQuantity(quantity) ==> r == Failure(InvalidQuantityMessage)
    ensures pending.Some? && ValidQuantity(quantity) && HasFood(items, pending.value.id)
            ==> r == Failure(DuplicateFoodMessage)
    ensures r.Success? ==> |r.value| == |items| + 1 && r.value[..|items|] == items
    ensures r.Success? ==> var added := r.value[|items|];
              && added.uniqueId == key && added.food == pending.value && added.quantity == quantity.value
              && (added.food.portionSize == 0.0 ==> added.macros == NoMacros)
              && (added.food.portionSize != 0.0 ==> Proportional(added.macros, added.food, added.quantity))
  {
    if pending.None? || !ValidQuantity(quantity) then Failure(InvalidQuantityMessage)
    else if HasFood(items, pending.value.id) then Failure(DuplicateFoodMessage)
    else
      var food := pending.value;
      var q := quantity.value;
      var item := LineItem(key, food, q, CalculateMacros(Some(food), Some(q)));
      assert (items + [item])[..|items|] == items;
      Success(items + [item])
  }

  /** Adding never creates a second line item for a food. */
  lemma AddKeepsFoodsDistinct(items: seq<LineItem>, pending: Option<Food>, quantity: Option<real>, key: string)
    requires DistinctFoods(items)
    requires AddFood(items, pending, quantity, key).Success?
    ensures DistinctFoods(AddFood(items, pending, quantity, key).value)
  {
    var r := AddFood(items, pending, quantity, key).value;
    forall i, j | 0 <= i < j < |r| ensures r[i].food.id != r[j].food.id {
      if j == |items| {
        assert r[i] == items[i];
      } else {
        assert r[i] == items[i] && r[j] == items[j];
      }
    }
  }

  lemma AddKeepsMacrosUpToDate(items: seq<LineItem>, pending: Option<Food>, quantity: Option<real>, key: string)
    requires MacrosUpToDate(items)
    requires AddFood(items, pending, quantity, key).Success?
    ensures MacrosUpToDate(AddFood(items, pending, quantity, key).value)
  {
    var r := AddFood(items, pending, quantity, key).value;
    assert forall i :: 0 <= i < |items| ==> r[i] == items[i];
  }

  /** A successful add raises the meal totals by exactly the new item's macros. */
  lemma AddRaisesTotals(items: seq<LineItem>, pending: Option<Food>, quantity: Option<real>, key: string)
    requires AddFood(items, pending, quantity, key).Success?
    ensures MealTotals(AddFood(items, pending, quantity, key).value)
         == AddMacros(MealTotals(items), CalculateMacros(pending, quantity))
  {
    var r := AddFood(items, pending, quantity, key).value;
    assert r == items + [r[|items|]];
    MealTotalsAppend(items, r[|items|]);
  }

  // ---------------------------------------------------------------------------
  // update
  // ---------------------------------------------------------------------------

  /** The item with a new quantity and the macros of that quantity. */
  function Requantify(item: LineItem, q: real): LineItem
  {
    item.(quantity := q, macros := CalculateMacros(Some(item.food), Some(q)))
  }

  /** `updateFoodQuantity(uniqueId, newQuantity)` on the list. */
  function UpdateQuantity(items: seq<LineItem>, uniqueId: string, newQuantity: Option<real>): (r: seq<LineItem>)
    ensures !ValidQuantity(newQuantity) ==> r == items
    ensures |r| == |items|
    ensures forall i :: 0 <= i < |items| ==> r[i].uniqueId == items[i].uniqueId && r[i].food == items[i].food
    ensures forall i :: 0 <= i < |items| && items[i].uniqueId != uniqueId ==> r[i] == items[i]
    ensures ValidQuantity(newQuantity) ==>
              forall i :: 0 <= i < |items| && items[i].uniqueId == uniqueId ==>
                && r[i].quantity == newQuantity.value
                && (r[i].food.portionSize == 0.0 ==> r[i].macros == NoMacros)
                && (r[i].food.portionSize != 0.0 ==> Proportional(r[i].macros, r[i].food, newQuantity.value))
  {
    if !ValidQuantity(newQuantity) then items
    else
      seq(|items|, i requires 0 <= i < |items| =>
        if items[i].uniqueId == uniqueId then Requantify(items[i], newQuantity.value) else items[i])
  }

  lemma UpdateKeepsFoodsDistinct(items: seq<LineItem>, uniqueId: string, q: Option<real>)
    requires DistinctFoods(items)
    ensures DistinctFoods(UpdateQuantity(items, uniqueId, q))
  {
  }

  lemma UpdateKeepsMacrosUpToDate(items: seq<LineItem>, uniqueId: string, q: Option<real>)
    requires MacrosUpToDate(items)
    ensures MacrosUpToDate(UpdateQuantity(items, uniqueId, q))
  {
    var r := UpdateQuantity(items, uniqueId, q);
    forall i | 0 <= i < |r|
      ensures r[i].macros == CalculateMacros(Some(r[i].food), Some(r[i].quantity))
    {
      if ValidQuantity(q) && items[i].uniqueId == uniqueId {
        assert r[i] == Requantify(items[i], q.value);
      }
    }
  }

  /** Repeating an update changes nothing more. */
  lemma UpdateIdempotent(items: seq<LineItem>, uniqueId: string, q: Option<real>)
    ensures UpdateQuantity(UpdateQuantity(items, uniqueId, q), uniqueId, q) == UpdateQuantity(items, uniqueId, q)
  {
    var once := UpdateQuantity(items, uniqueId, q);
    var twice := UpdateQuantity(once, uniqueId, q);
    if ValidQuantity(q) {
      forall i | 0 <= i < |items| ensures twice[i] == once[i] {
        if items[i].uniqueId == uniqueId {
          assert once[i] == Requantify(items[i], q.value);
          assert twice[i] == Requantify(once[i], q.value);
        }
      }
    }
  }

  // ---------------------------------------------------------------------------
  // remove
  // ---------------------------------------------------------------------------

  /** Whether an item is listed under a key other than `uniqueId`. */
  function OtherKey(uniqueId: string): LineItem -> bool
  {
    (x: LineItem) => x.uniqueId != uniqueId
  }

  /** `removeFoodFromMeal(uniqueId)`: the items whose key differs, in order. */
  function RemoveItem(items: seq<LineItem>, uniqueId: string): (r: seq<LineItem>)
    ensures forall i :: 0 <= i < |r| ==> r[i].uniqueId != uniqueId
    ensures multiset(r) <= multiset(items)
  {
    Collections.Filter(items, OtherKey(uniqueId))
  }

  /** An item survives removal exactly when it was listed under another key. */
  lemma RemoveMembership(items: seq<LineItem>, uniqueId: string, x: LineItem)
    ensures x in RemoveItem(items, uniqueId) <==> x in items && x.uniqueId != uniqueId
  {
    Collections.FilterMembership(items, OtherKey(uniqueId), x);
  }

  /** Removal distributes over concatenation: survivors keep their order. */
  lemma RemoveAppend(a: seq<LineItem>, b: seq<LineItem>, uniqueId: string)
    ensures RemoveItem(a + b, uniqueId) == RemoveItem(a, uniqueId) + RemoveItem(b, uniqueId)
  {
    Collections.FilterAppend(a, b, OtherKey(uniqueId));
  }

  /** Removing a key no item carries leaves the list as it was. */
  lemma RemoveAbsentKey(items: seq<LineItem>, uniqueId: string)
    requires forall i :: 0 <= i < |items| ==> items[i].uniqueId != uniqueId
    ensures RemoveItem(items, uniqueId) == items
  {
    Collections.FilterKeepsAll(items, OtherKey(uniqueId));
  }

  function FoodIdOf(item: LineItem): nat
  {
    item.food.id
  }

  lemma RemoveKeepsFoodsDistinct(items: seq<LineItem>, uniqueId: string)
    requires DistinctFoods(items)
    ensures DistinctFoods(RemoveItem(items, uniqueId))
  {
    assert Collections.UniqueBy(items, FoodIdOf);
    Collections.FilterUniqueBy(items, OtherKey(uniqueId), FoodIdOf);
    var r := RemoveItem(items, uniqueId);
    forall i, j | 0 <= i < j < |r| ensures r[i].food.id != r[j].food.id {
      assert FoodIdOf(r[i]) != FoodIdOf(r[j]);
    }
  }

  lemma RemoveKeepsMacrosUpToDate(items: seq<LineItem>, uniqueId: string)
    requires MacrosUpToDate(items)
    ensures MacrosUpToDate(RemoveItem(items, uniqueId))
  {
    var r := RemoveItem(items, uniqueId);
    forall i | 0 <= i < |r|
      ensures r[i].macros == CalculateMacros(Some(r[i].food), Some(r[i].quantity))
    {
      assert r[i] in multiset(items);
    }
  }

  // ---------------------------------------------------------------------------
  // the shared key
  // ---------------------------------------------------------------------------

  predicate AllKeyed(items: seq<LineItem>, key: string)
  {
    forall i :: 0 <= i < |items| ==> items[i].uniqueId == key
  }

  lemma AddKeepsAllKeyed(items: seq<LineItem>, pending: Option<Food>, quantity: Option<real>, key: string)
    requires AllKeyed(items, key)
    requires AddFood(items, pending, quantity, key).Success?
    ensures AllKeyed(AddFood(items, pending, quantity, key).value, key)
  {
    var r := AddFood(items, pending, quantity, key).value;
    assert forall i :: 0 <= i < |items| ==> r[i] == items[i];
  }

  lemma RemoveAllKeyed(items: seq<LineItem>, key: string)
    requires AllKeyed(items, key)
    ensures RemoveItem(items, key) == []
  {
    var r := RemoveItem(items, key);
    if |r| > 0 {
      RemoveMembership(items, key, r[0]);
    }
  }

  /** Removal keeps every surviving item's key. */
  lemma RemoveKeepsAllKeyed(items: seq<LineItem>, uniqueId: string, key: string)
    requires AllKeyed(items, key)
    ensures AllKeyed(RemoveItem(items, uniqueId), key)
  {
    var r := RemoveItem(items, uniqueId);
    forall i | 0 <= i < |r| ensures r[i].uniqueId == key {
      assert r[i] in multiset(items);
    }
  }

  /** When all items share one key, removing any one item removes them all. */
  lemma RemoveDropsEveryItem(items: seq<LineItem>, k: int)
    requires AllKeyed(items, UniqueIdLiteral)
    requires 0 <= k < |items|
    ensures RemoveItem(items, items[k].uniqueId) == []
  {
    RemoveAllKeyed(items, UniqueIdLiteral);
  }

  /** When all items share one key, editing one item's quantity edits every item. */
  lemma UpdateReachesEveryItem(items: seq<LineItem>, k: int, q: real)
    requires AllKeyed(items, UniqueIdLiteral)
    requires 0 <= k < |items|
    requires q > 0.0
    ensures forall i :: 0 <= i < |items| ==> UpdateQuantity(items, items[k].uniqueId, Some(q))[i].quantity == q
  {
  }

  /** Two different foods added one after the other: deleting the first one
      from the list also deletes the second. */
  lemma RemovingOneOfTwoDropsBoth(f1: Food, f2: Food)
    requires f1.id != f2.id
    ensures var one := AddFood([], Some(f1), Some(1.0), UniqueIdLiteral);
            one.Success? &&
            var two := AddFood(one.value, Some(f2), Some(1.0), UniqueIdLiteral);
            two.Success? && |two.value| == 2 && RemoveItem(two.value, two.value[0].uniqueId) == []
  {
    var one := AddFood([], Some(f1), Some(1.0), UniqueIdLiteral).value;
    assert !HasFood(one, f2.id);
    var two := AddFood(one, Some(f2), Some(1.0), UniqueIdLiteral).value;
    AddKeepsAllKeyed([], Some(f1), Some(1.0), UniqueIdLiteral);
    AddKeepsAllKeyed(one, Some(f2), Some(1.0), UniqueIdLiteral);
    RemoveDropsEveryItem(two, 0);
  }

  // ---------------------------------------------------------------------------
  // the intended key
  // ---------------------------------------------------------------------------

  /** `${foodToAddToMeal.id}-${Date.now()}`, the key the literal was meant to build. */
  function IntendedKey(foodId: nat, now: nat): (k: string)
    ensures Text.NatToString(foodId) + "-" <= k
  {
    Text.NatToString(foodId) + "-" + Text.NatToString(now)
  }

  /** Every item's key starts with its food id and a dash. */
  ghost predicate KeyedByFood(items: seq<LineItem>)
  {
    forall i :: 0 <= i < |items| ==> Text.NatToString(items[i].food.id) + "-" <= items[i].uniqueId
  }

  predicate DistinctKeys(items: seq<LineItem>)
  {
    forall i, j :: 0 <= i < j < |items| ==> items[i].uniqueId != items[j].uniqueId
  }

  /** A key of the intended form names exactly one food id. */
  lemma KeyPrefixDeterminesFood(a: nat, b: nat, key: string)
    requires Text.NatToString(a) + "-" <= key
    requires Text.NatToString(b) + "-" <= key
    ensures a == b
  {
    var da, db := Text.NatToString(a), Text.NatToString(b);
    var pa, pb := da + "-", db + "-";
    assert key[|pa| - 1] == '-' && key[|pb| - 1] == '-';
    assert forall i :: 0 <= i < |db| ==> key[i] == db[i] != '-';
    assert forall i :: 0 <= i < |da| ==> key[i] == da[i] != '-';
    assert |pa| - 1 >= |db| && |pb| - 1 >= |da|;
    assert da == key[..|da|] == db;
    Text.NatToStringInjective(a, b);
  }

  lemma AddIntendedKeepsKeyedByFood(items: seq<LineItem>, pending: Option<Food>, quantity: Option<real>, now: nat)
    requires KeyedByFood(items)
    requires pending.Some?
    requires AddFood(items, pending, quantity, IntendedKey(pending.value.id, now)).Success?
    ensures KeyedByFood(AddFood(items, pending, quantity, IntendedKey(pending.value.id, now)).value)
  {
    var r := AddFood(items, pending, quantity, IntendedKey(pending.value.id, now)).value;
    assert forall i :: 0 <= i < |items| ==> r[i] == items[i];
  }

  /** With intended keys, distinct foods have distinct keys. */
  lemma IntendedKeysAreDistinct(items: seq<LineItem>)
    requires DistinctFoods(items) && KeyedByFood(items)
    ensures DistinctKeys(items)
  {
    forall i, j | 0 <= i < j < |items| ensures items[i].uniqueId != items[j].uniqueId {
      if items[i].uniqueId == items[j].uniqueId {
        KeyPrefixDeterminesFood(items[i].food.id, items[j].food.id, items[i].uniqueId);
      }
    }
  }

  /** Removing the key of an item that no neighbour shares drops that item alone. */
  lemma RemoveAroundKey(before: seq<LineItem>, x: LineItem, after: seq<LineItem>)
    requires forall i :: 0 <= i < |before| ==> before[i].uniqueId != x.uniqueId
    requires forall i :: 0 <= i < |after| ==> after[i].uniqueId != x.uniqueId
    ensures RemoveItem(before + [x] + after, x.uniqueId) == before + after
  {
    var key := x.uniqueId;
    assert RemoveItem([x], key) == [] by {
      assert [x][1..] == [];
    }
    RemoveAppend(before, [x], key);
    RemoveAbsentKey(before, key);
    assert RemoveItem(before + [x], key) == before;
    RemoveAppend(before + [x], after, key);
    RemoveAbsentKey(after, key);
  }

  /** With distinct keys, the items on either side of `k` carry other keys. */
  lemma NeighboursCarryOtherKeys(items: seq<LineItem>, k: int, before: seq<LineItem>, after: seq<LineItem>)
    requires DistinctKeys(items)
    requires 0 <= k < |items| && before == items[..k] && after == items[k + 1..]
    ensures forall i :: 0 <= i < |before| ==> before[i].uniqueId != items[k].uniqueId
    ensures forall i :: 0 <= i < |after| ==> after[i].uniqueId != items[k].uniqueId
  {
    forall i | 0 <= i < |before| ensures before[i].uniqueId != items[k].uniqueId {
      assert before[i] == items[i];
    }
    forall i | 0 <= i < |after| ensures after[i].uniqueId != items[k].uniqueId {
      assert after[i] == items[k + 1 + i];
    }
  }

  /** Removing a key that only the item at `k` carries removes that item alone. */
  lemma RemoveUniqueKey(items: seq<LineItem>, k: int)
    requires DistinctKeys(items)
    requires 0 <= k < |items|
    ensures RemoveItem(items, items[k].uniqueId) == items[..k] + items[k + 1..]
  {
    var before, after := items[..k], items[k + 1..];
    NeighboursCarryOtherKeys(items, k, before, after);
    assert items == before + [items[k]] + after;
    RemoveAroundKey(before, items[k], after);
  }

  /** With intended keys, removing an item removes that item and no other. */
  lemma RemoveIntendedDropsExactlyOne(items: seq<LineItem>, k: int)
    requires DistinctFoods(items) && KeyedByFood(items)
    requires 0 <= k < |items|
    ensures RemoveItem(items, items[k].uniqueId) == items[..k] + items[k + 1..]
  {
    IntendedKeysAreDistinct(items);
    RemoveUniqueKey(items, k);
  }
}

=== FILE: meal_logger.dfy ===
/** The meal-logging screen: composing a meal from searched foods and saving
    it. Each handler is a pure step from the screen state (and, where the
    handler talks to the backend, the session and the backend's reply) to the
    next state, the session afterwards and the effects issued. */
module MealLogger {
  import opened Base
  import opened Client
  import opened Nutrition
  import opened MealItems
  import Text

  /** Queries shorter than this, in JavaScript's UTF-16 length, issue no
      search request. */
  const SearchThreshold: nat := 3

  /** `MEAL_TYPES_OPTIONS`: value and label of each entry of the selector. */
  const MealTypeOptions: seq<(string, string)> := [
    ("desayuno", "Desayuno"),
    ("media_manana", "Media Mañana"),
    ("almuerzo", "Almuerzo"),
    ("merienda", "Merienda"),
    ("cena", "Cena"),
    ("snack", "Snack")
  ]

  const InitialMealType: string := "desayuno"

  const LoginToSearchMessage: string := "Por favor, inicia sesión para buscar alimentos."
  const SearchExpiredMessage: string := "Sesión expirada. Inicia sesión de nuevo."
  const SearchFailedMessage: string := "Error al buscar alimentos. Intenta de nuevo."
  const EmptyMealMessage: string := "Debe añadir al menos un alimento a la comida."
  const LoginToSaveMessage: string := "Por favor, inicia sesión para guardar la comida."
  const SavedMessage: string := "¡Comida registrada con éxito!"
  const SaveErrorPrefix: string := "Error al guardar la comida: "
  const SaveExpiredMessage: string := "Sesión expirada. Inicie sesión de nuevo."
  const SaveFailedMessage: string := "Ocurrió un error inesperado al guardar la comida."

  /** The screen's state. `quantity` is the quantity field (None when its text
      is empty); `pending` is the search result chosen for adding. */
  datatype LoggerState = LoggerState(
    date: string,
    mealType: string,
    items: seq<LineItem>,
    searchTerm: string,
    results: seq<Food>,
    loadingSearch: bool,
    searchError: string,
    loadingSave: bool,
    saveError: string,
    saveSuccess: string,
    quantity: Option<real>,
    pending: Option<Food>)

  /** The screen as mounted on `today`. */
  function Initial(today: string): LoggerState
  {
    LoggerState(today, InitialMealType, [], "", [], false, "", false, "", "", None, None)
  }

  /** What holds of the line items throughout: one item per food, macros
      matching quantities, and every key the shared literal. */
  ghost predicate Invariant(st: LoggerState)
  {
    DistinctFoods(st.items) && MacrosUpToDate(st.items) && AllKeyed(st.items, UniqueIdLiteral)
  }

  // ---------------------------------------------------------------------------
  // search
  // ---------------------------------------------------------------------------

  /** `handleSearchChange` with the new query text. */
  function SearchChange(st: LoggerState, query: string, session: Session, reply: Reply<seq<Food>>)
    : (r: Step<LoggerState>)
    ensures r.state == st.(searchTerm := query, results := r.state.results, searchError := r.state.searchError,
                           pending := None, loadingSearch := false)
    ensures Text.Utf16Length(query) < SearchThreshold ==>
              r.effects == [] && r.session == session && r.state.results == [] && r.state.searchError == ""
    ensures Text.Utf16Length(query) >= SearchThreshold && !HasToken(session) ==>
              r.effects == [NavigateToLogin] && r.session == session
              && r.state.results == [] && r.state.searchError == LoginToSearchMessage
    ensures Text.Utf16Length(query) >= SearchThreshold && HasToken(session) ==> |r.effects| > 0 && r.effects[0] == GetFoods(query)
    ensures Text.Utf16Length(query) >= SearchThreshold && HasToken(session) && reply.Ok? ==>
              r.effects == [GetFoods(query)] && r.session == session
              && r.state.results == reply.data && r.state.searchError == ""
    ensures Text.Utf16Length(query) >= SearchThreshold && HasToken(session) && reply.Err? ==>
              r.state.results == []
              && (IsUnauthorized(reply.failure) ==>
                    r.session == SignedOut && r.effects == [GetFoods(query), NavigateToLogin]
                    && r.state.searchError == SearchExpiredMessage)
              && (!IsUnauthorized(reply.failure) ==>
                    r.session == session && r.effects == [GetFoods(query)]
                    && r.state.searchError == SearchFailedMessage)
  {
    var cleared := st.(searchTerm := query, results := [], searchError := "", pending := None, loadingSearch := false);
    if Text.Utf16Length(query) < SearchThreshold then Step(cleared, session, [])
    else if !HasToken(session) then Step(cleared.(searchError := LoginToSearchMessage), session, [NavigateToLogin])
    else
      var request := GetFoods(query);
      match reply
      case Ok(foods) => Step(cleared.(results := foods), session, [request])
      case Err(f) =>
        if IsUnauthorized(f) then Step(cleared.(searchError := SearchExpiredMessage), SignedOut, [request, NavigateToLogin])
        else Step(cleared.(searchError := SearchFailedMessage), session, [request])
  }

  /** A query below the threshold, or no token, sends nothing: the outcome
      cannot depend on any reply. */
  lemma SearchWithoutRequestIgnoresReply(st: LoggerState, query: string, session: Session,
                                         reply1: Reply<seq<Food>>, reply2: Reply<seq<Food>>)
    requires Text.Utf16Length(query) < SearchThreshold || !HasToken(session)
    ensures SearchChange(st, query, session, reply1) == SearchChange(st, query, session, reply2)
    ensures NoRequest(SearchChange(st, query, session, reply1).effects)
  {
  }

  /** Two astral characters (an emoji pair, say) already make a query long
      enough to send: JavaScript counts four code units. */
  lemma TwoAstralCharactersAreSearched(st: LoggerState, session: Session, reply: Reply<seq<Food>>)
    requires HasToken(session)
    ensures var query := "\U{1F34E}\U{1F34E}";
            |query| < SearchThreshold && SearchChange(st, query, session, reply).effects[0] == GetFoods(query)
  {
    var query := "\U{1F34E}\U{1F34E}";
    assert Text.Astral(query[0]) && Text.Astral(query[1]);
    assert query[1..][1..] == [];
  }

  /** `handleSelectedFoodForAdd(foodItem)`. */
  function SelectFood(st: LoggerState, food: Food): (r: LoggerState)
    ensures r.pending == Some(food) && r.quantity == Some(food.portionSize)
    ensures r.results == [] && r.searchTerm == "" && r.searchError == ""
    ensures r.items == st.items && r.date == st.date && r.mealType == st.mealType
  {
    // `foodItem.portion_size_g || '0'`: a zero portion falls back to the text "0"
    var q := if food.portionSize != 0.0 then food.portionSize else 0.0;
    st.(pending := Some(food), quantity := Some(q), results := [], searchTerm := "", searchError := "")
  }

  /** The "Cancelar" button of the pending food. */
  function CancelSelection(st: LoggerState): (r: LoggerState)
    ensures r.pending.None? && r.quantity.None? && r.searchError == ""
    ensures r.items == st.items && r.results == st.results && r.searchTerm == st.searchTerm
  {
    st.(pending := None, quantity := None, searchError := "")
  }

  /** Choosing a food and cancelling it leaves the meal as it was, with
      nothing pending and the search cleared. */
  lemma SelectThenCancelKeepsMeal(st: LoggerState, food: Food)
    ensures var r := CancelSelection(SelectFood(st, food));
            r == st.(pending := None, quantity := None, results := [], searchTerm := "", searchError := "")
  {
  }

  // ---------------------------------------------------------------------------
  // composing
  // ---------------------------------------------------------------------------

  /** `handleAddFoodToMealList()`. */
  function AddToMeal(st: LoggerState): (r: LoggerState)
    ensures r.date == st.date && r.mealType == st.mealType && r.results == st.results && r.searchTerm == st.searchTerm
    ensures !AddFood(st.items, st.pending, st.quantity, UniqueIdLiteral).Success? ==>
              r == st.(searchError := AddFood(st.items, st.pending, st.quantity, UniqueIdLiteral).error)
    ensures AddFood(st.items, st.pending, st.quantity, UniqueIdLiteral).Success? ==>
              && |r.items| == |st.items| + 1 && r.items[..|st.items|] == st.items
              && r.items[|st.items|].food == st.pending.value
              && r.pending.None? && r.quantity.None? && r.searchError == ""
  {
    match AddFood(st.items, st.pending, st.quantity, UniqueIdLiteral)
    case Failure(message) => st.(searchError := message)
    case Success(items) => st.(items := items, pending := None, quantity := None, searchError := "")
  }

  /** Choosing a food and adding it at the proposed quantity lists the food's
      own per-portion values. */
  lemma SelectThenAddListsPortionValues(st: LoggerState, food: Food)
    requires food.portionSize > 0.0
    requires !HasFood(st.items, food.id)
    ensures var r := AddToMeal(SelectFood(st, food));
            |r.items| == |st.items| + 1 && r.items[|st.items|].macros == PortionMacros(food)
  {
    MacrosAtPortionSize(food);
  }

  /** The quantity field of a listed item. */
  function EditQuantity(st: LoggerState, uniqueId: string, newQuantity: Option<real>): (r: LoggerState)
    ensures r == st.(items := r.items)
    ensures |r.items| == |st.items|
    ensures !ValidQuantity(newQuantity) ==> r == st
    ensures ValidQuantity(newQuantity) ==>
              forall i :: 0 <= i < |st.items| ==>
                r.items[i].quantity == if st.items[i].uniqueId == uniqueId then newQuantity.value
                                       else st.items[i].quantity
  {
    st.(items := UpdateQuantity(st.items, uniqueId, newQuantity))
  }

  /** The delete button of a listed item. */
  function RemoveFromMeal(st: LoggerState, uniqueId: string): (r: LoggerState)
    ensures r == st.(items := r.items)
    ensures forall i :: 0 <= i < |r.items| ==> r.items[i].uniqueId != uniqueId
    ensures multiset(r.items) <= multiset(st.items)
  {
    st.(items := RemoveItem(st.items, uniqueId))
  }

  // ---------------------------------------------------------------------------
  // saving
  // ---------------------------------------------------------------------------

  /** The body of the create request: date, meal type, and one (food id,
      quantity) pair per line item, in list order. */
  function SavePayload(st: LoggerState): (p: MealPayload)
    ensures p.date == st.date && p.mealType == st.mealType && |p.items| == |st.items|
    ensures forall i :: 0 <= i < |st.items| ==>
              p.items[i].foodItem == st.items[i].food.id && p.items[i].quantity == st.items[i].quantity
  {
    MealPayload(st.date, st.mealType,
      seq(|st.items|, i requires 0 <= i < |st.items| => PayloadItem(st.items[i].food.id, st.items[i].quantity)))
  }

  /** Distinct foods in the list give distinct foods in the payload. */
  lemma PayloadFoodsDistinct(st: LoggerState)
    requires DistinctFoods(st.items)
    ensures var p := SavePayload(st).items;
            forall i, j :: 0 <= i < j < |p| ==> p[i].foodItem != p[j].foodItem
  {
  }

  /** How a failed save is reported: message, and whether the session ends. */
  datatype SaveFailureReport = SaveFailureReport(message: string, signOut: bool)

  /** The failure branches of `handleSaveMeal` in the order they are checked:
      a response body first, a 401 only without a body. */
  function ClassifySaveFailure(f: Failure): (r: SaveFailureReport)
    ensures r.signOut <==> IsUnauthorized(f) && !HasBody(f)
    ensures HasBody(f) ==> r.message == SaveErrorPrefix + Flatten(f.body.value)
    ensures IsUnauthorized(f) && !HasBody(f) ==> r.message == SaveExpiredMessage
    ensures !HasBody(f) && !IsUnauthorized(f) ==> r.message == SaveFailedMessage
  {
    if HasBody(f) then SaveFailureReport(SaveErrorPrefix + Flatten(f.body.value), false)
    else if IsUnauthorized(f) then SaveFailureReport(SaveExpiredMessage, true)
    else SaveFailureReport(SaveFailedMessage, false)
  }

  /** A 401 that carries a body is shown as flattened messages and leaves the
      session in place. */
  lemma UnauthorizedWithBodyKeepsSession(body: ErrorBody)
    ensures var r := ClassifySaveFailure(Response(Unauthorized, Some(body)));
            !r.signOut && r.message == SaveErrorPrefix + Flatten(body)
  {
  }

  /** The failure branches with the 401 test first, as the food search and
      the dashboard order them. */
  function ClassifySaveFailureIntended(f: Failure): (r: SaveFailureReport)
    ensures r.signOut <==> IsUnauthorized(f)
    ensures IsUnauthorized(f) ==> r.message == SaveExpiredMessage
    ensures !IsUnauthorized(f) && HasBody(f) ==> r.message == SaveErrorPrefix + Flatten(f.body.value)
  {
    if IsUnauthorized(f) then SaveFailureReport(SaveExpiredMessage, true)
    else if HasBody(f) then SaveFailureReport(SaveErrorPrefix + Flatten(f.body.value), false)
    else SaveFailureReport(SaveFailedMessage, false)
  }

  /** The two orders disagree on a 401 with a body and on nothing else. */
  lemma ClassificationsDifferOnlyOnUnauthorizedWithBody(f: Failure)
    ensures ClassifySaveFailure(f) == ClassifySaveFailureIntended(f) <==> !(IsUnauthorized(f) && HasBody(f))
  {
  }

  /** The form after a successful save: everything composed is cleared, the
      date and the meal type stay. */
  function AfterSave(st: LoggerState): LoggerState
  {
    st.(items := [], searchTerm := "", results := [], pending := None, quantity := None,
        saveSuccess := SavedMessage, saveError := "", searchError := "", loadingSave := false)
  }

  /** `handleSaveMeal()`. */
  function SaveMeal(st: LoggerState, session: Session, reply: Reply<()>): (r: Step<LoggerState>)
    ensures r.state.date == st.date && r.state.mealType == st.mealType && !r.state.loadingSave
    ensures |st.items| == 0 ==>
              r.effects == [] && r.session == session
              && r.state == st.(saveError := EmptyMealMessage, saveSuccess := "", loadingSave := false)
    ensures |st.items| > 0 && !HasToken(session) ==>
              r.effects == [NavigateToLogin] && r.session == session
              && r.state == st.(saveError := LoginToSaveMessage, saveSuccess := "", loadingSave := false)
    ensures |st.items| > 0 && HasToken(session) ==> |r.effects| > 0 && r.effects[0] == PostMeal(SavePayload(st))
    ensures |st.items| > 0 && HasToken(session) && reply.Ok? ==>
              && r.effects == [PostMeal(SavePayload(st))] && r.session == session
              && r.state.items == [] && r.state.pending.None? && r.state.quantity.None?
              && r.state.searchTerm == "" && r.state.results == []
              && r.state.saveSuccess == SavedMessage && r.state.saveError == "" && r.state.searchError == ""
    ensures |st.items| > 0 && HasToken(session) && reply.Err? ==>
              var report := ClassifySaveFailure(reply.failure);
              && r.state == st.(saveError := report.message, saveSuccess := "", loadingSave := false)
              && r.session == (if report.signOut then SignedOut else session)
              && r.effects == [PostMeal(SavePayload(st))] + (if report.signOut then [NavigateToLogin] else [])
  {
    var started := st.(saveError := "", saveSuccess := "", loadingSave := false);
    if |st.items| == 0 then Step(started.(saveError := EmptyMealMessage), session, [])
    else if !HasToken(session) then Step(started.(saveError := LoginToSaveMessage), session, [NavigateToLogin])
    else
      var request := PostMeal(SavePayload(st));
      match reply
      case Ok(_) => Step(AfterSave(started), session, [request])
      case Err(f) =>
        var report := ClassifySaveFailure(f);
        if report.signOut then Step(started.(saveError := report.message), SignedOut, [request, NavigateToLogin])
        else Step(started.(saveError := report.message), session, [request])
  }

  /** An empty meal, or no token, sends nothing. */
  lemma SaveWithoutRequestIgnoresReply(st: LoggerState, session: Session, reply1: Reply<()>, reply2: Reply<()>)
    requires |st.items| == 0 || !HasToken(session)
    ensures SaveMeal(st, session, reply1) == SaveMeal(st, session, reply2)
    ensures NoRequest(SaveMeal(st, session, reply1).effects)
  {
  }

  // ---------------------------------------------------------------------------
  // the invariant
  // ---------------------------------------------------------------------------

  lemma InitialSatisfiesInvariant(today: string)
    ensures Invariant(Initial(today))
  {
  }

  /** Every handler of the screen keeps the line-item invariant. */
  lemma HandlersPreserveInvariant(st: LoggerState, query: string, food: Food, uniqueId: string,
                                  q: Option<real>, session: Session,
                                  foods: Reply<seq<Food>>, saved: Reply<()>)
    requires Invariant(st)
    ensures Invariant(SearchChange(st, query, session, foods).state)
    ensures Invariant(SelectFood(st, food))
    ensures Invariant(CancelSelection(st))
    ensures Invariant(AddToMeal(st))
    ensures Invariant(EditQuantity(st, uniqueId, q))
    ensures Invariant(RemoveFromMeal(st, uniqueId))
    ensures Invariant(SaveMeal(st, session, saved).state)
  {
    if AddFood(st.items, st.pending, st.quantity, UniqueIdLiteral).Success? {
      AddKeepsFoodsDistinct(st.items, st.pending, st.quantity, UniqueIdLiteral);
      AddKeepsMacrosUpToDate(st.items, st.pending, st.quantity, UniqueIdLiteral);
      AddKeepsAllKeyed(st.items, st.pending, st.quantity, UniqueIdLiteral);
    }
    UpdateKeepsFoodsDistinct(st.items, uniqueId, q);
    UpdateKeepsMacrosUpToDate(st.items, uniqueId, q);
    RemoveKeepsFoodsDistinct(st.items, uniqueId);
    RemoveKeepsMacrosUpToDate(st.items, uniqueId);
    RemoveKeepsAllKeyed(st.items, uniqueId, UniqueIdLiteral);
  }
}

=== FILE: meal_store.dfy ===
/** The backend's meal tables and the views over them: each meal belongs to
    one user and is unique per (user, date, meal type); each meal line is
    unique per (meal, food); deletions cascade as the foreign keys declare;
    the list and detail endpoints only reach the requesting user's meals.
    Dates are ISO `YYYY-MM-DD` text, so text order is date order. */
module MealStore {
  import opened Base
  import Text
  import Collections
  import FoodCatalog

  /** The `choices` of `meal_type`, stored value and label. */
  const MealTypeChoices: seq<(string, string)> := [
    ("desayuno", "Desayuno"),
    ("media_manana", "Media Mañana"),
    ("almuerzo", "Almuerzo"),
    ("merienda", "Merienda"),
    ("cena", "Cena"),
    ("snack", "Snack")
  ]

  predicate IsMealType(t: string)
  {
    exists i :: 0 <= i < |MealTypeChoices| && MealTypeChoices[i].0 == t
  }

  /** `max_digits=10, decimal_places=2`: at most 99999999.99, in hundredths. */
  const QuantityBound: int := 10_000_000_000

  predicate FitsQuantity(q: int)
  {
    -QuantityBound < q < QuantityBound
  }

  datatype Meal = Meal(id: nat, user: nat, date: string, mealType: string)

  /** A row of the `Meal`–`FoodItem` through table; `quantity` in hundredths. */
  datatype MealFoodItem = MealFoodItem(id: nat, meal: nat, food: nat, quantity: int)

  datatype Db = Db(users: set<nat>, foods: seq<FoodCatalog.FoodItem>, meals: seq<Meal>, entries: seq<MealFoodItem>)

  function MealId(m: Meal): nat { m.id }
  function MealKey(m: Meal): (nat, string, string) { (m.user, m.date, m.mealType) }
  function EntryId(e: MealFoodItem): nat { e.id }
  function EntryKey(e: MealFoodItem): (nat, nat) { (e.meal, e.food) }

  function MealIds(meals: seq<Meal>): set<nat>
  {
    set m | m in meals :: m.id
  }

  function FoodIds(foods: seq<FoodCatalog.FoodItem>): set<nat>
  {
    set f | f in foods :: f.id
  }

  /** Foods: a valid table whose creators exist (`SET_NULL` keeps it so). */
  predicate FoodsValid(users: set<nat>, foods: seq<FoodCatalog.FoodItem>)
  {
    && FoodCatalog.Valid(foods)
    && forall i :: 0 <= i < |foods| ==> foods[i].createdBy.Some? ==> foods[i].createdBy.value in users
  }

  /** Meals: unique ids, `unique_together` (user, date, meal_type), a valid
      choice, and an existing owner. */
  predicate MealsValid(users: set<nat>, meals: seq<Meal>)
  {
    && Collections.UniqueBy(meals, MealId)
    && Collections.UniqueBy(meals, MealKey)
    && forall i :: 0 <= i < |meals| ==> meals[i].user in users && IsMealType(meals[i].mealType)
  }

  /** Meal lines: unique ids, `unique_together` (meal, food_item), existing
      meal and food, and a quantity the column admits. */
  predicate EntriesValid(mealIds: set<nat>, foodIds: set<nat>, entries: seq<MealFoodItem>)
  {
    && Collections.UniqueBy(entries, EntryId)
    && Collections.UniqueBy(entries, EntryKey)
    && forall i :: 0 <= i < |entries| ==>
         entries[i].meal in mealIds && entries[i].food in foodIds && FitsQuantity(entries[i].quantity)
  }

  predicate Valid(db: Db)
  {
    && FoodsValid(db.users, db.foods)
    && MealsValid(db.users, db.meals)
    && EntriesValid(MealIds(db.meals), FoodIds(db.foods), db.entries)
  }

  datatype StoreError = InvalidChoice | MealExists | NoSuchMeal | NoSuchFood | EntryExists | QuantityOutOfRange | NotFound

  // ---------------------------------------------------------------------------
  // writes
  // ---------------------------------------------------------------------------

  predicate MealKeyTaken(meals: seq<Meal>, key: (nat, string, string))
  {
    exists i :: 0 <= i < |meals| && MealKey(meals[i]) == key
  }

  /** `MealListCreateView.perform_create`: the meal is saved with the
      requesting user as owner, whatever the request body says. A second
      meal of the same user, date and type breaks the table's unique
      constraint. An unknown meal type is refused before the save: `choices`
      is not a database constraint, so the refusal comes from the
      serializer's validation of the field. The caller is authenticated, so
      the user exists. */
  function CreateMeal(db: Db, requestUser: nat, date: string, mealType: string): (r: Result<Db, StoreError>)
    requires requestUser in db.users
    ensures r.Failure? <==> !IsMealType(mealType) || MealKeyTaken(db.meals, (requestUser, date, mealType))
    ensures r.Failure? && !IsMealType(mealType) ==> r.error == InvalidChoice
    ensures r.Success? ==>
              && r.value == db.(meals := r.value.meals)
              && |r.value.meals| == |db.meals| + 1 && r.value.meals[..|db.meals|] == db.meals
              && var m := r.value.meals[|db.meals|];
                 m.user == requestUser && m.date == date && m.mealType == mealType && m.id !in MealIds(db.meals)
  {
    if !IsMealType(mealType) then Failure(InvalidChoice)
    else if MealKeyTaken(db.meals, (requestUser, date, mealType)) then Failure(MealExists)
    else
      var id := Collections.NextKey(db.meals, MealId);
      Success(db.(meals := db.meals + [Meal(id, requestUser, date, mealType)]))
  }

  lemma CreateMealKeepsValid(db: Db, requestUser: nat, date: string, mealType: string)
    requires Valid(db) && requestUser in db.users
    requires CreateMeal(db, requestUser, date, mealType).Success?
    ensures Valid(CreateMeal(db, requestUser, date, mealType).value)
  {
    var r := CreateMeal(db, requestUser, date, mealType).value;
    var n := |db.meals|;
    forall i, j | 0 <= i < j < |r.meals| ensures MealKey(r.meals[i]) != MealKey(r.meals[j]) && r.meals[i].id != r.meals[j].id {
      if j == n {
        assert r.meals[i] == db.meals[i];
        assert r.meals[i] in db.meals;
      }
    }
    assert MealIds(db.meals) <= MealIds(r.meals) by {
      forall x | x in MealIds(db.meals) ensures x in MealIds(r.meals) {
        var m :| m in db.meals && m.id == x;
        assert m in r.meals;
      }
    }
  }

  predicate EntryKeyTaken(entries: seq<MealFoodItem>, key: (nat, nat))
  {
    exists i :: 0 <= i < |entries| && EntryKey(entries[i]) == key
  }

  /** Adding a food to a meal with a quantity, as the tables allow it. */
  function AddEntry(db: Db, meal: nat, food: nat, quantity: int): (r: Result<Db, StoreError>)
    ensures r.Success? <==>
              meal in MealIds(db.meals) && food in FoodIds(db.foods)
              && !EntryKeyTaken(db.entries, (meal, food)) && FitsQuantity(quantity)
    ensures r.Success? ==>
              && r.value == db.(entries := r.value.entries)
              && |r.value.entries| == |db.entries| + 1 && r.value.entries[..|db.entries|] == db.entries
              && var e := r.value.entries[|db.entries|];
                 e.meal == meal && e.food == food && e.quantity == quantity
  {
    if meal !in MealIds(db.meals) then Failure(NoSuchMeal)
    else if food !in FoodIds(db.foods) then Failure(NoSuchFood)
    else if EntryKeyTaken(db.entries, (meal, food)) then Failure(EntryExists)
    else if !FitsQuantity(quantity) then Failure(QuantityOutOfRange)
    else
      var id := Collections.NextKey(db.entries, EntryId);
      Success(db.(entries := db.entries + [MealFoodItem(id, meal, food, quantity)]))
  }

  lemma AddEntryKeepsValid(db: Db, meal: nat, food: nat, quantity: int)
    requires Valid(db)
    requires AddEntry(db, meal, food, quantity).Success?
    ensures Valid(AddEntry(db, meal, food, quantity).value)
  {
    var r := AddEntry(db, meal, food, quantity).value;
    var n := |db.entries|;
    forall i, j | 0 <= i < j < |r.entries|
      ensures EntryKey(r.entries[i]) != EntryKey(r.entries[j]) && r.entries[i].id != r.entries[j].id
    {
      if j == n {
        assert r.entries[i] == db.entries[i];
      }
    }
  }

  // ---------------------------------------------------------------------------
  // deletions and their cascades
  // ---------------------------------------------------------------------------

  predicate MealOf(m: Meal, user: nat) { m.user == user }
  predicate MealNotIn(m: Meal, gone: set<nat>) { m.id !in gone }
  predicate EntryNotIn(e: MealFoodItem, gone: set<nat>) { e.meal !in gone }

  /** The meals kept when the meals `gone` are deleted. */
  function KeepMealsNotIn(meals: seq<Meal>, gone: set<nat>): seq<Meal>
  {
    Collections.Filter(meals, m => MealNotIn(m, gone))
  }

  /** The meal lines kept when the meals `gone` are deleted (`CASCADE`). */
  function KeepEntriesNotIn(entries: seq<MealFoodItem>, gone: set<nat>): seq<MealFoodItem>
  {
    Collections.Filter(entries, e => EntryNotIn(e, gone))
  }

  /** The ids of a user's meals. */
  function MealIdsOf(meals: seq<Meal>, user: nat): (ids: set<nat>)
    ensures forall m :: m in meals && m.user == user ==> m.id in ids
  {
    set m | m in meals && m.user == user :: m.id
  }

  /** `created_by` set to null where it named `user` (`SET_NULL`). */
  function ForgetCreator(foods: seq<FoodCatalog.FoodItem>, user: nat): (r: seq<FoodCatalog.FoodItem>)
    ensures |r| == |foods|
    ensures forall i :: 0 <= i < |r| ==> r[i] == foods[i].(createdBy := r[i].createdBy)
    ensures forall i :: 0 <= i < |r| ==>
              r[i].createdBy == if foods[i].createdBy == Some(user) then None else foods[i].createdBy
  {
    seq(|foods|, i requires 0 <= i < |foods| =>
      if foods[i].createdBy == Some(user) then foods[i].(createdBy := None) else foods[i])
  }

  /** Deleting a user: their meals go, and with them those meals' lines; the
      foods they created stay, without a creator. */
  function DeleteUser(db: Db, user: nat): (r: Db)
    ensures r.users == db.users - {user}
    ensures forall m :: m in r.meals <==> m in db.meals && m.user != user
    ensures forall e :: e in r.entries <==> e in db.entries && e.meal !in MealIdsOf(db.meals, user)
    ensures r.foods == ForgetCreator(db.foods, user)
  {
    var gone := MealIdsOf(db.meals, user);
    var meals := Collections.Filter(db.meals, m => !MealOf(m, user));
    var entries := KeepEntriesNotIn(db.entries, gone);
    forall m ensures m in meals <==> m in db.meals && m.user != user {
      Collections.FilterMembership(db.meals, m => !MealOf(m, user), m);
    }
    forall e ensures e in entries <==> e in db.entries && e.meal !in gone {
      Collections.FilterMembership(db.entries, e => EntryNotIn(e, gone), e);
    }
    Db(db.users - {user}, ForgetCreator(db.foods, user), meals, entries)
  }

  lemma ForgetCreatorKeepsFoodsValid(users: set<nat>, foods: seq<FoodCatalog.FoodItem>, user: nat)
    requires FoodsValid(users, foods)
    ensures FoodsValid(users - {user}, ForgetCreator(foods, user))
  {
    var r := ForgetCreator(foods, user);
    assert forall i :: 0 <= i < |r| ==> r[i].id == foods[i].id && r[i].name == foods[i].name;
    assert forall i, j :: 0 <= i < j < |r| ==> FoodCatalog.FoodId(r[i]) != FoodCatalog.FoodId(r[j]);
    assert forall i, j :: 0 <= i < j < |r| ==> FoodCatalog.FoodName(r[i]) != FoodCatalog.FoodName(r[j]);
  }

  lemma ForgetCreatorKeepsIds(foods: seq<FoodCatalog.FoodItem>, user: nat)
    ensures FoodIds(ForgetCreator(foods, user)) == FoodIds(foods)
  {
    var r := ForgetCreator(foods, user);
    forall x ensures x in FoodIds(r) <==> x in FoodIds(foods) {
      if x in FoodIds(r) {
        var f :| f in r && f.id == x;
        var i :| 0 <= i < |r| && r[i] == f;
        assert foods[i] in foods;
      }
      if x in FoodIds(foods) {
        var f :| f in foods && f.id == x;
        var i :| 0 <= i < |foods| && foods[i] == f;
        assert r[i] in r;
      }
    }
  }

  /** Deleting a user keeps the store valid: no meal or meal line is left
      pointing at what was deleted. */
  lemma DeleteUserKeepsValid(db: Db, user: nat)
    requires Valid(db)
    ensures Valid(DeleteUser(db, user))
  {
    var r := DeleteUser(db, user);
    var gone := MealIdsOf(db.meals, user);
    ForgetCreatorKeepsFoodsValid(db.users, db.foods, user);
    ForgetCreatorKeepsIds(db.foods, user);
    Collections.FilterUniqueBy(db.meals, m => !MealOf(m, user), MealId);
    Collections.FilterUniqueBy(db.meals, m => !MealOf(m, user), MealKey);
    Collections.FilterUniqueBy(db.entries, e => EntryNotIn(e, gone), EntryId);
    Collections.FilterUniqueBy(db.entries, e => EntryNotIn(e, gone), EntryKey);
    forall i | 0 <= i < |r.meals| ensures r.meals[i].user in r.users && IsMealType(r.meals[i].mealType) {
      assert r.meals[i] in db.meals;
    }
    forall i | 0 <= i < |r.entries| ensures r.entries[i].meal in MealIds(r.meals) {
      var e := r.entries[i];
      assert e in db.entries;
      var m :| m in db.meals && m.id == e.meal;
      assert m.user != user;
      assert m in r.meals;
    }
    forall i | 0 <= i < |r.entries| ensures r.entries[i].food in FoodIds(r.foods) && FitsQuantity(r.entries[i].quantity) {
      assert r.entries[i] in db.entries;
    }
  }

  /** Deleting a meal: it goes, and so do its lines. */
  function DeleteMeal(db: Db, id: nat): (r: Db)
    ensures r.users == db.users && r.foods == db.foods
    ensures forall m :: m in r.meals <==> m in db.meals && m.id != id
    ensures forall e :: e in r.entries <==> e in db.entries && e.meal != id
  {
    var meals := KeepMealsNotIn(db.meals, {id});
    var entries := KeepEntriesNotIn(db.entries, {id});
    forall m ensures m in meals <==> m in db.meals && m.id != id {
      Collections.FilterMembership(db.meals, m => MealNotIn(m, {id}), m);
    }
    forall e ensures e in entries <==> e in db.entries && e.meal != id {
      Collections.FilterMembership(db.entries, e => EntryNotIn(e, {id}), e);
    }
    db.(meals := meals, entries := entries)
  }

  lemma DeleteMealKeepsValid(db: Db, id: nat)
    requires Valid(db)
    ensures Valid(DeleteMeal(db, id))
  {
    var r := DeleteMeal(db, id);
    Collections.FilterUniqueBy(db.meals, m => MealNotIn(m, {id}), MealId);
    Collections.FilterUniqueBy(db.meals, m => MealNotIn(m, {id}), MealKey);
    Collections.FilterUniqueBy(db.entries, e => EntryNotIn(e, {id}), EntryId);
    Collections.FilterUniqueBy(db.entries, e => EntryNotIn(e, {id}), EntryKey);
    forall i | 0 <= i < |r.meals| ensures r.meals[i].user in r.users && IsMealType(r.meals[i].mealType) {
      assert r.meals[i] in db.meals;
    }
    forall i | 0 <= i < |r.entries|
      ensures r.entries[i].meal in MealIds(r.meals) && r.entries[i].food in FoodIds(r.foods)
              && FitsQuantity(r.entries[i].quantity)
    {
      var e := r.entries[i];
      assert e in db.entries;
      var m :| m in db.meals && m.id == e.meal;
      assert m in r.meals;
    }
  }

  /** Deleting a food: it goes, and so do the meal lines that used it. */
  function DeleteFood(db: Db, id: nat): (r: Db)
    ensures r.users == db.users && r.meals == db.meals
    ensures forall f :: f in r.foods <==> f in db.foods && f.id != id
    ensures forall e :: e in r.entries <==> e in db.entries && e.food != id
  {
    var foods := Collections.Filter(db.foods, (f: FoodCatalog.FoodItem) => f.id != id);
    var entries := Collections.Filter(db.entries, (e: MealFoodItem) => e.food != id);
    forall f ensures f in foods <==> f in db.foods && f.id != id {
      Collections.FilterMembership(db.foods, (f: FoodCatalog.FoodItem) => f.id != id, f);
    }
    forall e ensures e in entries <==> e in db.entries && e.food != id {
      Collections.FilterMembership(db.entries, (e: MealFoodItem) => e.food != id, e);
    }
    db.(foods := foods, entries := entries)
  }

  lemma DeleteFoodKeepsValid(db: Db, id: nat)
    requires Valid(db)
    ensures Valid(DeleteFood(db, id))
  {
    var r := DeleteFood(db, id);
    var keepFood := (f: FoodCatalog.FoodItem) => f.id != id;
    var keepEntry := (e: MealFoodItem) => e.food != id;
    Collections.FilterUniqueBy(db.foods, keepFood, FoodCatalog.FoodId);
    Collections.FilterUniqueBy(db.foods, keepFood, FoodCatalog.FoodName);
    Collections.FilterUniqueBy(db.entries, keepEntry, EntryId);
    Collections.FilterUniqueBy(db.entries, keepEntry, EntryKey);
    forall i | 0 <= i < |r.foods|
      ensures FoodCatalog.WellFormed(r.foods[i])
              && (r.foods[i].createdBy.Some? ==> r.foods[i].isCustom && r.foods[i].createdBy.value in r.users)
    {
      assert r.foods[i] in db.foods;
    }
    forall i | 0 <= i < |r.entries|
      ensures r.entries[i].meal in MealIds(r.meals) && r.entries[i].food in FoodIds(r.foods)
              && FitsQuantity(r.entries[i].quantity)
    {
      var e := r.entries[i];
      assert e in db.entries;
      var f :| f in db.foods && f.id == e.food;
      assert f in r.foods;
    }
  }

  // ---------------------------------------------------------------------------
  // views
  // ---------------------------------------------------------------------------

  /** `order_by('-date', 'meal_type')`: latest date first, then meal type. */
  predicate ListLe(a: Meal, b: Meal)
  {
    Text.StrLt(b.date, a.date) || (a.date == b.date && Text.StrLe(a.mealType, b.mealType))
  }

  /** The model's default `ordering = ['date', 'meal_type']`. */
  predicate DefaultLe(a: Meal, b: Meal)
  {
    Text.StrLt(a.date, b.date) || (a.date == b.date && Text.StrLe(a.mealType, b.mealType))
  }

  /** The list order reverses the default order of dates and keeps that of
      meal types within a date. */
  lemma ListOrderReversesOnlyDates(a: Meal, b: Meal)
    ensures a.date != b.date ==> (ListLe(a, b) <==> DefaultLe(b, a))
    ensures a.date == b.date ==> (ListLe(a, b) <==> DefaultLe(a, b))
  {
  }

  lemma StrLtTransitive(a: string, b: string, c: string)
    requires Text.StrLt(a, b) && Text.StrLt(b, c)
    ensures Text.StrLt(a, c)
  {
    Text.StrLeTransitive(a, b, c);
    if a == c {
      Text.StrLeAntisymmetric(a, b);
    }
  }

  lemma StrLtOrEqual(a: string, b: string)
    ensures Text.StrLt(a, b) || a == b || Text.StrLt(b, a)
  {
    Text.StrLeTotal(a, b);
  }

  lemma ListLeIsTotalOrder()
    ensures Collections.Total(ListLe) && Collections.Transitive(ListLe)
  {
    forall a: Meal, b: Meal ensures ListLe(a, b) || ListLe(b, a) {
      StrLtOrEqual(a.date, b.date);
      Text.StrLeTotal(a.mealType, b.mealType);
    }
    forall a: Meal, b: Meal, c: Meal | ListLe(a, b) && ListLe(b, c) ensures ListLe(a, c) {
      if a.date == b.date && b.date == c.date {
        Text.StrLeTransitive(a.mealType, b.mealType, c.mealType);
      } else if a.date == b.date {
        assert Text.StrLt(c.date, a.date);
      } else if b.date == c.date {
        assert Text.StrLt(c.date, a.date);
      } else {
        StrLtTransitive(c.date, b.date, a.date);
      }
    }
  }

  lemma DefaultLeIsTotalOrder()
    ensures Collections.Total(DefaultLe) && Collections.Transitive(DefaultLe)
  {
    forall a: Meal, b: Meal ensures DefaultLe(a, b) || DefaultLe(b, a) {
      StrLtOrEqual(a.date, b.date);
      Text.StrLeTotal(a.mealType, b.mealType);
    }
    forall a: Meal, b: Meal, c: Meal | DefaultLe(a, b) && DefaultLe(b, c) ensures DefaultLe(a, c) {
      if a.date == b.date && b.date == c.date {
        Text.StrLeTransitive(a.mealType, b.mealType, c.mealType);
      } else if a.date == b.date {
        assert Text.StrLt(a.date, c.date);
      } else if b.date == c.date {
        assert Text.StrLt(a.date, c.date);
      } else {
        StrLtTransitive(a.date, b.date, c.date);
      }
    }
  }

  /** The meals in the model's default order. */
  function DefaultOrder(meals: seq<Meal>): (r: seq<Meal>)
    ensures multiset(r) == multiset(meals)
    ensures Collections.SortedBy(r, DefaultLe)
  {
    DefaultLeIsTotalOrder();
    Collections.SortBy(meals, DefaultLe)
  }

  /** `MealListCreateView.get_queryset`: the requesting user's meals, latest first. */
  function MealsOfUser(db: Db, user: nat): (r: seq<Meal>)
    ensures forall m :: m in r <==> m in db.meals && m.user == user
    ensures multiset(r) == multiset(Collections.Filter(db.meals, m => MealOf(m, user)))
    ensures Collections.SortedBy(r, ListLe)
  {
    ListLeIsTotalOrder();
    var own := Collections.Filter(db.meals, m => MealOf(m, user));
    forall m ensures m in own <==> m in db.meals && m.user == user {
      Collections.FilterMembership(db.meals, m => MealOf(m, user), m);
    }
    var r := Collections.SortBy(own, ListLe);
    assert forall m :: m in r <==> m in multiset(own);
    r
  }

  /** The meal of this user with this id, if there is one. */
  function FindOwnMeal(meals: seq<Meal>, user: nat, id: nat): (r: Option<Meal>)
    ensures r.Some? ==> r.value in meals && r.value.user == user && r.value.id == id
    ensures r.None? ==> forall m :: m in meals ==> !(m.user == user && m.id == id)
  {
    if |meals| == 0 then None
    else if meals[0].user == user && meals[0].id == id then Some(meals[0])
    else FindOwnMeal(meals[1..], user, id)
  }

  /** `MealRetrieveUpdateDestroyView` lookup: another user's meal is "not
      found" exactly as a missing one is. */
  function RetrieveMeal(db: Db, user: nat, id: nat): (r: Result<Meal, StoreError>)
    ensures r.Success? ==> r.value in db.meals && r.value.user == user && r.value.id == id
    ensures r.Failure? <==> forall m :: m in db.meals ==> !(m.user == user && m.id == id)
    ensures r.Failure? ==> r.error == NotFound
  {
    match FindOwnMeal(db.meals, user, id)
    case None => Failure(NotFound)
    case Some(m) => Success(m)
  }

  /** The destroy endpoint: the user's own meal is deleted with its lines;
      anything else leaves the store as it was. */
  function DestroyMeal(db: Db, user: nat, id: nat): (r: Result<Db, StoreError>)
    ensures RetrieveMeal(db, user, id).Failure? <==> r.Failure?
    ensures r.Success? ==> r.value == DeleteMeal(db, id)
  {
    match RetrieveMeal(db, user, id)
    case Failure(e) => Failure(e)
    case Success(m) => Success(DeleteMeal(db, m.id))
  }

  /** Destroying through the endpoint never removes another user's meal. */
  lemma DestroyMealSparesOthers(db: Db, user: nat, id: nat, other: Meal)
    requires Valid(db)
    requires other in db.meals && other.user != user
    requires DestroyMeal(db, user, id).Success?
    ensures other in DestroyMeal(db, user, id).value.meals
  {
  }
}

=== FILE: nutrition.dfy ===
/** The macro calculator of the meal logger: nutrients of a quantity of a food
    in proportion to its portion size, and field-wise totals over a list.
    Values are exact reals; the two-decimal display rounding is not modelled. */
module Nutrition {
  import opened Base

  /** A food as the client receives it from `GET /foods/`: nutrient values are
      those of one portion of `portionSize` units. */
  datatype Food = Food(
    id: nat,
    name: string,
    brand: Option<string>,
    portionSize: real,
    portionUnit: string,
    calories: real,
    proteins: real,
    fats: real,
    carbs: real)

  /** The four nutrients the client computes and sums. */
  datatype Macros = Macros(calories: real, proteins: real, fats: real, carbs: real)

  const NoMacros: Macros := Macros(0.0, 0.0, 0.0, 0.0)

  function AddMacros(a: Macros, b: Macros): Macros
  {
    Macros(a.calories + b.calories, a.proteins + b.proteins, a.fats + b.fats, a.carbs + b.carbs)
  }

  /** The food's own per-portion values. */
  function PortionMacros(f: Food): Macros
  {
    Macros(f.calories, f.proteins, f.fats, f.carbs)
  }

  /** The all-zero cases: no food, a falsy quantity (empty text or 0), or a
      portion size of 0. */
  predicate ZeroFallback(food: Option<Food>, quantity: Option<real>)
  {
    food.None? || quantity.None? || quantity.value == 0.0 || food.value.portionSize == 0.0
  }

  /** `m` holds each nutrient of `f` scaled by `q` over the portion size,
      stated without division. */
  ghost predicate Proportional(m: Macros, f: Food, q: real)
  {
    && m.calories * f.portionSize == f.calories * q
    && m.proteins * f.portionSize == f.proteins * q
    && m.fats * f.portionSize == f.fats * q
    && m.carbs * f.portionSize == f.carbs * q
  }

  /** `calculateMacros(foodItem, quantity)`. */
  function CalculateMacros(food: Option<Food>, quantity: Option<real>): (m: Macros)
    ensures ZeroFallback(food, quantity) ==> m == NoMacros
    ensures !ZeroFallback(food, quantity) ==> Proportional(m, food.value, quantity.value)
  {
    if ZeroFallback(food, quantity) then NoMacros
    else
      var f := food.value;
      var ratio := quantity.value / f.portionSize;
      Macros(f.calories * ratio, f.proteins * ratio, f.fats * ratio, f.carbs * ratio)
  }

  /** A quantity equal to the portion size gives back the listed values. */
  lemma MacrosAtPortionSize(f: Food)
    requires f.portionSize != 0.0
    ensures CalculateMacros(Some(f), Some(f.portionSize)) == PortionMacros(f)
  {
  }

  /** Scaling a food's values by a ratio. */
  function Scaled(f: Food, ratio: real): Macros
  {
    Macros(f.calories * ratio, f.proteins * ratio, f.fats * ratio, f.carbs * ratio)
  }

  /** With a non-zero portion, a zero quantity's fallback agrees with the formula,
      so every quantity scales the food by quantity over portion size. */
  lemma CalculateMacrosScales(f: Food, q: real)
    requires f.portionSize != 0.0
    ensures CalculateMacros(Some(f), Some(q)) == Scaled(f, q / f.portionSize)
  {
  }

  lemma ScaledAdditive(f: Food, r1: real, r2: real)
    ensures Scaled(f, r1 + r2) == AddMacros(Scaled(f, r1), Scaled(f, r2))
  {
    assert f.calories * (r1 + r2) == f.calories * r1 + f.calories * r2;
    assert f.proteins * (r1 + r2) == f.proteins * r1 + f.proteins * r2;
    assert f.fats * (r1 + r2) == f.fats * r1 + f.fats * r2;
    assert f.carbs * (r1 + r2) == f.carbs * r1 + f.carbs * r2;
  }

  lemma DivisionDistributes(a: real, b: real, p: real)
    requires p != 0.0
    ensures (a + b) / p == a / p + b / p
  {
    assert (a / p) * p == a && (b / p) * p == b;
    assert (a / p + b / p) * p == a + b;
  }

  /** The calculation is linear in the quantity: the macros of two quantities
      add up to those of their sum, whatever the food. */
  lemma MacrosAdditive(f: Food, q1: real, q2: real)
    ensures CalculateMacros(Some(f), Some(q1 + q2))
         == AddMacros(CalculateMacros(Some(f), Some(q1)), CalculateMacros(Some(f), Some(q2)))
  {
    if f.portionSize != 0.0 {
      var p := f.portionSize;
      CalculateMacrosScales(f, q1);
      CalculateMacrosScales(f, q2);
      CalculateMacrosScales(f, q1 + q2);
      DivisionDistributes(q1, q2, p);
      ScaledAdditive(f, q1 / p, q2 / p);
    }
  }

  // ---------------------------------------------------------------------------
  // line items and totals
  // ---------------------------------------------------------------------------

  /** A food in the meal being composed, with its quantity and computed macros. */
  datatype LineItem = LineItem(uniqueId: string, food: Food, quantity: real, macros: Macros)

  function ItemMacros(item: LineItem): Macros
  {
    item.macros
  }

  /** Field-wise sum of `f` over `s`, first element first. */
  function SumBy<T>(s: seq<T>, f: T -> Macros): Macros
  {
    if |s| == 0 then NoMacros else AddMacros(f(s[0]), SumBy(s[1..], f))
  }

  lemma {:induction false} SumByAppend<T>(a: seq<T>, b: seq<T>, f: T -> Macros)
    ensures SumBy(a + b, f) == AddMacros(SumBy(a, f), SumBy(b, f))
  {
    if |a| == 0 {
      assert a + b == b;
    } else {
      assert (a + b)[1..] == a[1..] + b;
      SumByAppend(a[1..], b, f);
    }
  }

  lemma {:induction false} SumByRemoveAt<T>(b: seq<T>, i: int, f: T -> Macros)
    requires 0 <= i < |b|
    ensures SumBy(b, f) == AddMacros(f(b[i]), SumBy(b[..i] + b[i + 1..], f))
  {
    var before, after := b[..i], b[i + 1..];
    var tail := [b[i]] + after;
    assert b == before + tail;
    assert tail[1..] == after;
    assert SumBy(tail, f) == AddMacros(f(b[i]), SumBy(after, f));
    SumByAppend(before, tail, f);
    SumByAppend(before, after, f);
  }

  lemma MultisetRemoveAt<T>(b: seq<T>, i: int)
    requires 0 <= i < |b|
    ensures multiset(b[..i] + b[i + 1..]) == multiset(b) - multiset{b[i]}
  {
    assert b == b[..i] + [b[i]] + b[i + 1..];
  }

  /** Plain summation does not depend on the order of the elements. */
  lemma {:induction false} SumByPermutation<T>(a: seq<T>, b: seq<T>, f: T -> Macros)
    requires multiset(a) == multiset(b)
    ensures SumBy(a, f) == SumBy(b, f)
    decreases |a|
  {
    if |a| == 0 {
      assert |b| == |multiset(b)| == 0;
    } else {
      var x := a[0];
      assert x in multiset(b);
      var i :| 0 <= i < |b| && b[i] == x;
      MultisetRemoveAt(a, 0);
      MultisetRemoveAt(b, i);
      assert a[..0] + a[1..] == a[1..];
      SumByPermutation(a[1..], b[..i] + b[i + 1..], f);
      SumByRemoveAt(b, i, f);
    }
  }

  /** `calculateMealTotals()`: the totals shown under the meal being composed. */
  function MealTotals(items: seq<LineItem>): (t: Macros)
    ensures |items| == 0 ==> t == NoMacros
  {
    SumBy(items, ItemMacros)
  }

  /** Appending an item adds exactly its macros to the totals. */
  lemma MealTotalsAppend(items: seq<LineItem>, item: LineItem)
    ensures MealTotals(items + [item]) == AddMacros(MealTotals(items), item.macros)
  {
    SumByAppend(items, [item], ItemMacros);
  }

  /** Reordering the line items leaves the totals unchanged. */
  lemma MealTotalsPermutation(a: seq<LineItem>, b: seq<LineItem>)
    requires multiset(a) == multiset(b)
    ensures MealTotals(a) == MealTotals(b)
  {
    SumByPermutation(a, b, ItemMacros);
  }
}

=== FILE: register_form.dfy ===
/** The sign-up form: a client-side password-match guard, the registration
    request, and the message shown for each outcome. */
module RegisterForm {
  import opened Base
  import opened Client
  import Text

  datatype Form = Form(
    username: string,
    email: string,
    password: string,
    password2: string,
    error: string,
    success: string)

  const MismatchMessage: string := "Las contraseñas no coinciden."
  const SuccessMessage: string := "Registro exitoso. ¡Ahora puedes iniciar sesión!"
  const ErrorPrefix: string := "Error de registro: "
  const UnexpectedMessage: string := "Ocurrió un error inesperado al registrarse."
  /** The delay of the redirect to the login page after a success. */
  const RedirectDelayMs: nat := 2000

  /** The request body: the four fields, as typed. */
  function Body(form: Form): RegistrationBody
  {
    RegistrationBody(form.username, form.email, form.password, form.password2)
  }

  /** `handleSubmit`. The typed fields are never cleared, and the stored
      session is neither read nor changed. */
  function HandleSubmit(form: Form, session: Session, reply: Reply<()>): (r: Step<Form>)
    ensures r.session == session
    ensures r.state.username == form.username && r.state.email == form.email
    ensures r.state.password == form.password && r.state.password2 == form.password2
    ensures form.password != form.password2 ==>
              r.effects == [] && r.state.error == MismatchMessage && r.state.success == ""
    ensures form.password == form.password2 ==> |r.effects| > 0 && r.effects[0] == PostRegistration(Body(form))
    ensures form.password == form.password2 && reply.Ok? ==>
              r.effects == [PostRegistration(Body(form)), NavigateToLoginAfter(RedirectDelayMs)]
              && r.state.success == SuccessMessage && r.state.error == ""
    ensures form.password == form.password2 && reply.Err? ==>
              && r.effects == [PostRegistration(Body(form))] && r.state.success == ""
              && (HasBody(reply.failure) ==> r.state.error == ErrorPrefix + Flatten(reply.failure.body.value))
              && (!HasBody(reply.failure) ==> r.state.error == UnexpectedMessage)
  {
    var cleared := form.(error := "", success := "");
    if form.password != form.password2 then
      Step(cleared.(error := MismatchMessage), session, [])
    else
      var request := PostRegistration(Body(form));
      match reply
      case Ok(_) =>
        Step(cleared.(success := SuccessMessage), session, [request, NavigateToLoginAfter(RedirectDelayMs)])
      case Err(f) =>
        if f.Response? && f.body.Some? then
          Step(cleared.(error := ErrorPrefix + Flatten(f.body.value)), session, [request])
        else
          Step(cleared.(error := UnexpectedMessage), session, [request])
  }

  /** Whatever the form showed before, a submit shows only its own outcome. */
  lemma SubmitForgetsPreviousMessages(form: Form, session: Session, error: string, success: string, reply: Reply<()>)
    ensures HandleSubmit(form.(error := error, success := success), session, reply) == HandleSubmit(form, session, reply)
  {
  }

  /** Mismatched passwords never reach the server, whatever it would answer. */
  lemma MismatchSendsNothing(form: Form, session: Session, reply1: Reply<()>, reply2: Reply<()>)
    requires form.password != form.password2
    ensures HandleSubmit(form, session, reply1) == HandleSubmit(form, session, reply2)
    ensures NoRequest(HandleSubmit(form, session, reply1).effects)
  {
  }

  /** The server's messages are all recoverable from the shown error when none
      contains a space: the part after the prefix splits back into them. */
  lemma ServerMessagesRecoverable(form: Form, session: Session, status: int, body: ErrorBody)
    requires form.password == form.password2
    requires |AllMessages(body)| > 0
    requires forall i :: 0 <= i < |AllMessages(body)| ==> ' ' !in AllMessages(body)[i]
    ensures var e := HandleSubmit(form, session, Err(Response(status, Some(body)))).state.error;
            |e| >= |ErrorPrefix| && e[..|ErrorPrefix|] == ErrorPrefix
            && Text.Split(e[|ErrorPrefix|..], ' ') == AllMessages(body)
  {
    var e := HandleSubmit(form, session, Err(Response(status, Some(body)))).state.error;
    assert e == ErrorPrefix + Flatten(body);
    assert e[|ErrorPrefix|..] == Flatten(body);
    FlattenRoundTrip(body);
  }
}

=== FILE: text.dfy ===
/** String helpers the rest of the model relies on: JavaScript's `join`,
    a split that inverts it, ASCII case folding for case-insensitive
    containment, code-point lexicographic order, decimal rendering of
    natural numbers, JavaScript string length and Python's `strip`. */
module Text {

  // ---------------------------------------------------------------------------
  // join / split
  // ---------------------------------------------------------------------------

  /** `parts.join(sep)`: the parts with `sep` between neighbours; "" for no parts. */
  function Join(sep: char, parts: seq<string>): string
  {
    if |parts| == 0 then ""
    else if |parts| == 1 then parts[0]
    else parts[0] + [sep] + Join(sep, parts[1..])
  }

  /** Cuts `s` at every occurrence of `sep`; always at least one piece. */
  function Split(s: string, sep: char): (r: seq<string>)
    ensures |r| > 0
  {
    if |s| == 0 then [""]
    else
      var rest := Split(s[1..], sep);
      if s[0] == sep then [""] + rest
      else [[s[0]] + rest[0]] + rest[1..]
  }

  lemma {:induction false} SplitWithoutSeparator(p: string, sep: char)
    requires sep !in p
    ensures Split(p, sep) == [p]
  {
    if |p| > 0 {
      SplitWithoutSeparator(p[1..], sep);
      assert [p[0]] + p[1..] == p;
    }
  }

  lemma {:induction false} SplitAfterPiece(p: string, t: string, sep: char)
    requires sep !in p
    ensures Split(p + [sep] + t, sep) == [p] + Split(t, sep)
  {
    var s := p + [sep] + t;
    if |p| == 0 {
      assert s[0] == sep && s[1..] == t;
    } else {
      assert s[0] == p[0] && s[1..] == p[1..] + [sep] + t;
      SplitAfterPiece(p[1..], t, sep);
      assert [p[0]] + p[1..] == p;
    }
  }

  /** Splitting a join recovers the parts, provided no part holds the separator. */
  lemma {:induction false} SplitJoin(parts: seq<string>, sep: char)
    requires |parts| > 0
    requires forall i :: 0 <= i < |parts| ==> sep !in parts[i]
    ensures Split(Join(sep, parts), sep) == parts
  {
    if |parts| == 1 {
      SplitWithoutSeparator(parts[0], sep);
    } else {
      SplitJoin(parts[1..], sep);
      SplitAfterPiece(parts[0], Join(sep, parts[1..]), sep);
      assert [parts[0]] + parts[1..] == parts;
    }
  }

  // ---------------------------------------------------------------------------
  // case folding and containment
  // ---------------------------------------------------------------------------

  /** ASCII lower-casing of one character; other characters are unchanged. */
  function LowerChar(c: char): char
  {
    if 'A' <= c <= 'Z' then (c as int + 32) as char else c
  }

  function Lower(s: string): (r: string)
    ensures |r| == |s|
    ensures forall i :: 0 <= i < |s| ==> r[i] == LowerChar(s[i])
  {
    seq(|s|, i requires 0 <= i < |s| => LowerChar(s[i]))
  }

  /** `sub` occurs in `s`, found by walking along `s`. */
  predicate Contains(s: string, sub: string)
    decreases |s|
  {
    sub <= s || (|s| > 0 && Contains(s[1..], sub))
  }

  /** The reference meaning of containment: an occurrence at some offset. */
  ghost predicate OccursAt(s: string, sub: string, k: int)
  {
    0 <= k && k + |sub| <= |s| && s[k..k + |sub|] == sub
  }

  lemma {:induction false} ContainsHasOccurrence(s: string, sub: string)
    requires Contains(s, sub)
    ensures exists k :: OccursAt(s, sub, k)
    decreases |s|
  {
    if sub <= s {
      assert OccursAt(s, sub, 0);
    } else {
      ContainsHasOccurrence(s[1..], sub);
      var k :| OccursAt(s[1..], sub, k);
      assert s[k + 1..k + 1 + |sub|] == s[1..][k..k + |sub|];
      assert OccursAt(s, sub, k + 1);
    }
  }

  lemma {:induction false} OccurrenceGivesContains(s: string, sub: string, k: int)
    requires OccursAt(s, sub, k)
    ensures Contains(s, sub)
    decreases |s|
  {
    if k == 0 {
      assert s[..|sub|] == sub;
    } else {
      assert s[1..][k - 1..k - 1 + |sub|] == s[k..k + |sub|];
      OccurrenceGivesContains(s[1..], sub, k - 1);
    }
  }

  /** The walking definition agrees with the occurrence-at-an-offset definition. */
  lemma ContainsIffOccurs(s: string, sub: string)
    ensures Contains(s, sub) <==> exists k :: OccursAt(s, sub, k)
  {
    if Contains(s, sub) {
      ContainsHasOccurrence(s, sub);
    }
    if exists k :: OccursAt(s, sub, k) {
      var k :| OccursAt(s, sub, k);
      OccurrenceGivesContains(s, sub, k);
    }
  }

  /** Every string contains the empty string. */
  lemma {:induction false} ContainsEmpty(s: string)
    ensures Contains(s, "")
  {
    assert "" <= s;
  }

  /** Case-insensitive containment, the meaning of Django's `icontains` on ASCII text. */
  predicate ContainsIgnoringCase(s: string, sub: string)
  {
    Contains(Lower(s), Lower(sub))
  }

  lemma LowerIdempotent(s: string)
    ensures Lower(Lower(s)) == Lower(s)
  {
  }

  // ---------------------------------------------------------------------------
  // lexicographic order
  // ---------------------------------------------------------------------------

  /** `a` sorts no later than `b` when characters are compared by code point. */
  predicate StrLe(a: string, b: string)
    decreases |a|
  {
    |a| == 0 || (|b| > 0 && (a[0] < b[0] || (a[0] == b[0] && StrLe(a[1..], b[1..]))))
  }

  predicate StrLt(a: string, b: string)
  {
    StrLe(a, b) && a != b
  }

  lemma {:induction false} StrLeReflexive(a: string)
    ensures StrLe(a, a)
    decreases |a|
  {
    if |a| > 0 {
      StrLeReflexive(a[1..]);
    }
  }

  lemma {:induction false} StrLeTotal(a: string, b: string)
    ensures StrLe(a, b) || StrLe(b, a)
    decreases |a|
  {
    if |a| > 0 && |b| > 0 && a[0] == b[0] {
      StrLeTotal(a[1..], b[1..]);
    }
  }

  lemma {:induction false} StrLeTransitive(a: string, b: string, c: string)
    requires StrLe(a, b) && StrLe(b, c)
    ensures StrLe(a, c)
    decreases |a|
  {
    if |a| > 0 && a[0] == b[0] && b[0] == c[0] {
      StrLeTransitive(a[1..], b[1..], c[1..]);
    }
  }

  lemma {:induction false} StrLeAntisymmetric(a: string, b: string)
    requires StrLe(a, b) && StrLe(b, a)
    ensures a == b
    decreases |a|
  {
    if |a| > 0 {
      StrLeAntisymmetric(a[1..], b[1..]);
      assert a == [a[0]] + a[1..] && b == [b[0]] + b[1..];
    }
  }

  // ---------------------------------------------------------------------------
  // decimal rendering
  // ---------------------------------------------------------------------------

  function DigitChar(d: nat): (c: char)
    requires d < 10
    ensures '0' <= c <= '9'
  {
    ('0' as int + d) as char
  }

  /** The decimal digits of `n`, as a template literal `${n}` renders it. */
  function NatToString(n: nat): (r: string)
    ensures |r| > 0
    ensures forall i :: 0 <= i < |r| ==> '0' <= r[i] <= '9'
  {
    if n < 10 then [DigitChar(n)] else NatToString(n / 10) + [DigitChar(n % 10)]
  }

  lemma {:induction false} NatToStringSingleDigit(n: nat)
    ensures |NatToString(n)| == 1 <==> n < 10
  {
    if n >= 10 {
      assert |NatToString(n / 10)| > 0;
    }
  }

  lemma {:induction false} NatToStringInjective(a: nat, b: nat)
    requires NatToString(a) == NatToString(b)
    ensures a == b
    decreases a
  {
    var s := NatToString(a);
    NatToStringSingleDigit(a);
    NatToStringSingleDigit(b);
    if a < 10 {
      assert s == [DigitChar(a)] == [DigitChar(b)];
    } else {
      assert DigitChar(a % 10) == s[|s| - 1] == DigitChar(b % 10);
      assert NatToString(a / 10) == s[..|s| - 1] == NatToString(b / 10);
      NatToStringInjective(a / 10, b / 10);
    }
  }

  // ---------------------------------------------------------------------------
  // JavaScript string length
  // ---------------------------------------------------------------------------

  /** Whether a character lies outside the Basic Multilingual Plane, where
      UTF-16 needs a surrogate pair for it. */
  predicate Astral(c: char)
  {
    c as int > 0xFFFF
  }

  /** `s.length` in JavaScript: the number of UTF-16 code units, two for each
      astral character and one for every other. */
  function Utf16Length(s: string): (n: nat)
    ensures |s| <= n <= 2 * |s|
  {
    if |s| == 0 then 0 else (if Astral(s[0]) then 2 else 1) + Utf16Length(s[1..])
  }

  /** The code units of a concatenation are those of its parts. */
  lemma {:induction false} Utf16LengthAppend(a: string, b: string)
    ensures Utf16Length(a + b) == Utf16Length(a) + Utf16Length(b)
  {
    if |a| == 0 {
      assert a + b == b;
    } else {
      assert (a + b)[0] == a[0] && (a + b)[1..] == a[1..] + b;
      Utf16LengthAppend(a[1..], b);
    }
  }

  /** Without astral characters, JavaScript's length is the character count. */
  lemma {:induction false} Utf16LengthWithoutAstral(s: string)
    requires forall i :: 0 <= i < |s| ==> !Astral(s[i])
    ensures Utf16Length(s) == |s|
  {
    if |s| > 0 {
      Utf16LengthWithoutAstral(s[1..]);
    }
  }

  // ---------------------------------------------------------------------------
  // Python's str.strip
  // ---------------------------------------------------------------------------

  /** Python's `str.isspace`: the characters `str.strip()` removes. */
  predicate IsSpace(c: char)
  {
    '\t' <= c <= '\r' || '\U{1C}' <= c <= ' ' || c == '\U{85}' || c == '\U{A0}' || c == '\U{1680}'
    || '\U{2000}' <= c <= '\U{200A}' || c == '\U{2028}' || c == '\U{2029}' || c == '\U{202F}'
    || c == '\U{205F}' || c == '\U{3000}'
  }

  /** Every character of `s` is whitespace. */
  predicate AllSpace(s: string)
  {
    forall k :: 0 <= k < |s| ==> IsSpace(s[k])
  }

  /** `s.lstrip()`: the suffix left once the leading whitespace is gone. */
  function TrimStart(s: string): (r: string)
    ensures |r| <= |s| && r == s[|s| - |r|..]
    ensures AllSpace(s[..|s| - |r|])
    ensures |r| > 0 ==> !IsSpace(r[0])
  {
    if |s| > 0 && IsSpace(s[0]) then TrimStart(s[1..]) else s
  }

  /** `s.rstrip()`: the prefix left once the trailing whitespace is gone. */
  function TrimEnd(s: string): (r: string)
    ensures |r| <= |s| && r == s[..|r|]
    ensures AllSpace(s[|r|..])
    ensures |r| > 0 ==> !IsSpace(r[|r| - 1])
  {
    if |s| > 0 && IsSpace(s[|s| - 1]) then TrimEnd(s[..|s| - 1]) else s
  }

  /** `s.strip()`: the text between the leading and the trailing whitespace. */
  function Strip(s: string): (r: string)
    ensures |r| <= |s|
    ensures |r| > 0 ==> !IsSpace(r[0]) && !IsSpace(r[|r| - 1])
  {
    TrimStart(TrimEnd(s))
  }

  /** Leading whitespace makes no difference to `lstrip`. */
  lemma {:induction false} TrimStartSkipsSpace(pre: string, s: string)
    requires AllSpace(pre)
    ensures TrimStart(pre + s) == TrimStart(s)
  {
    if |pre| > 0 {
      assert (pre + s)[1..] == pre[1..] + s;
      TrimStartSkipsSpace(pre[1..], s);
    } else {
      assert pre + s == s;
    }
  }

  /** Trailing whitespace makes no difference to `rstrip`. */
  lemma {:induction false} TrimEndSkipsSpace(s: string, post: string)
    requires AllSpace(post)
    ensures TrimEnd(s + post) == TrimEnd(s)
  {
    if |post| > 0 {
      assert (s + post)[..|s + post| - 1] == s + post[..|post| - 1];
      TrimEndSkipsSpace(s, post[..|post| - 1]);
    } else {
      assert s + post == s;
    }
  }

  /** `rstrip` of a concatenation: the front stays whole unless the back is
      all whitespace. */
  lemma {:induction false} TrimEndAppend(front: string, s: string)
    ensures |TrimEnd(s)| > 0 ==> TrimEnd(front + s) == front + TrimEnd(s)
    ensures |TrimEnd(s)| == 0 ==> TrimEnd(front + s) == TrimEnd(front)
  {
    if |s| == 0 {
      assert front + s == front;
    } else if IsSpace(s[|s| - 1]) {
      assert (front + s)[..|front + s| - 1] == front + s[..|s| - 1];
      TrimEndAppend(front, s[..|s| - 1]);
    }
  }

  /** Whitespace around a value never changes what `strip` gives. */
  lemma StripIgnoresPadding(pre: string, s: string, post: string)
    requires AllSpace(pre) && AllSpace(post)
    ensures Strip(pre + s + post) == Strip(s)
  {
    TrimEndSkipsSpace(pre + s, post);
    TrimEndAppend(pre, s);
    if |TrimEnd(s)| > 0 {
      TrimStartSkipsSpace(pre, TrimEnd(s));
    } else {
      TrimEndSkipsSpace([], pre);
      assert [] + pre == pre;
    }
  }

  /** A value without surrounding whitespace is left as it is. */
  lemma StripKeepsUnpadded(s: string)
    requires |s| > 0 ==> !IsSpace(s[0]) && !IsSpace(s[|s| - 1])
    ensures Strip(s) == s
  {
  }

  /** Stripping twice is stripping once. */
  lemma StripIdempotent(s: string)
    ensures Strip(Strip(s)) == Strip(s)
  {
    StripKeepsUnpadded(Strip(s));
  }
}
